=== FILE: README.md ===
# fontmake download and export scripts — a Dafny model

Two macro scripts for Glyphs.app:

- `download-fontmake-pyz-from-gh.py` downloads the latest fontmake release as a
  self-contained zip-app. It asks the hosting API for the latest release tag, then for
  that tag's release. It picks the macOS/Python 3.11 archive from the release's assets,
  follows the download URL's redirects with HEAD requests, downloads and unpacks the
  archive, and moves the `fontmake` executable out as `fontmake-{version}.pyz`. Last, it
  removes the unpacked directory and the archive.
- `export-font-with-fontmake.py` checks that a saved, unmodified font is open and that
  the plugin interpreter exists. It asks for an output folder and runs the zip-app on
  the font. While the zip-app runs, the script echoes its output and captures it. At the
  end it reports the exit status and reveals the last file fontmake's log says it saved.

The model keeps the decisions these scripts make and turns their effects into inputs:

- The hosting API's answers, the HEAD answers and the downloaded archives are values
  (`Release`, `Redirect.Network`, `Installer.Remote`).
- The filesystem is a set of file paths and a set of directory paths (`FileSystem.Fs`).
- An archive is its set of member paths.
- The child process is the lines it writes plus its exit status.
- The host application's state is a record of booleans and optional strings
  (`Exporter.Host`).

Modules:

| file | module | what it holds |
|---|---|---|
| common.dfy | Common | `Option` and `Either` |
| text.dfy | Text | `str.find`-style search, `rfind`, `split` and `join` |
| paths.dfy | Paths | pathlib paths as component sequences, `/`, `name`, `stem` |
| naming.dfy | Naming | tag to version, the archive, directory and zip-app names and paths |
| release.dfy | Release | release answers, the latest tag, the asset scan |
| urls.dfy | Urls | the parts of `urlsplit` a HEAD request uses |
| redirect.dfy | Redirect | `get_redirected_url` over an abstract network |
| filesystem.dfy | FileSystem | writing, `extractall`, `rename`, `rmtree`, `unlink` |
| installer.dfy | Installer | `download_and_extract_zip` and `main` of the installer |
| logscan.dfy | LogScan | the `re.findall` over fontmake's log and the last-path choice |
| supervisor.dfy | Supervisor | `run_subprocess_in_macro_window` |
| exporter.dfy | Exporter | the exporter's command line, name rule, checks and `main` |

## Model

| member | source | states |
|---|---|---|
| Naming.NormalizeVersion | download-fontmake-pyz-from-gh.py:75-77 | The version is the tag with one leading 'v' removed. It equals the tag exactly when the tag does not start with 'v'. |
| Naming.StripsExactlyOneV | download-fontmake-pyz-from-gh.py:75-77 | Exactly one 'v' is stripped: "v"+x gives x for every x. So "vv1" gives "v1", and "v3.7.0" and "3.7.0" both give "3.7.0". |
| Naming.ArchiveName | download-fontmake-pyz-from-gh.py:79 | The asset name is the name of the directory it should unpack to followed by ".zip". It holds a '/' exactly when the version does. |
| Naming.ExtractedName | download-fontmake-pyz-from-gh.py:116 | The expected directory's name starts with "fontmake-" and the version, and holds a '/' exactly when the version does. |
| Naming.ArtifactName | download-fontmake-pyz-from-gh.py:127 | The zip-app's name holds a '/' exactly when the version does, and is longer than the version. |
| Naming.ArchivePath | download-fontmake-pyz-from-gh.py:80 | For a version without '/', `zip_path` is the asset name as one new entry of `output_dir`. |
| Naming.ExtractedDir | download-fontmake-pyz-from-gh.py:116 | For a version without '/', `output_dir / zip_path.stem` is the entry named after the archive without ".zip". |
| Naming.ArtifactPath | download-fontmake-pyz-from-gh.py:127 | For a version without '/', the zip-app is its name as one new entry of `output_dir`. |
| Naming.NamesAreSlashFree | download-fontmake-pyz-from-gh.py:35 | A version without '/' gives three names without '/'. The archive name is the extracted directory's name followed by ".zip". |
| Naming.JoinSingle | download-fontmake-pyz-from-gh.py:80 | `output_dir / name` adds exactly one component when the name has no '/' and is neither "" nor ".". |
| Naming.NamesDistinct | download-fontmake-pyz-from-gh.py:79-80 | For every version, the archive, extracted-directory and zip-app names are pairwise distinct. |
| Naming.PlainVersionNames | download-fontmake-pyz-from-gh.py:79-80 | For a version without '/', the archive, the extracted directory and the zip-app are each one new component of `output_dir`. Their three names are pairwise distinct, and the directory name is the archive name minus ".zip". |
| Naming.PlainFilePaths | download-fontmake-pyz-from-gh.py:79-80 | For a version without '/', the archive and the zip-app are each one new component of `output_dir`. |
| Naming.PlainExtractedDir | download-fontmake-pyz-from-gh.py:116 | For a version without '/', `output_dir / zip_path.stem` is the component named after the archive without ".zip". |
| Naming.TaggedReleaseNames | download-fontmake-pyz-from-gh.py:75-79 | The tag "v3.7.0" names `fontmake-3.7.0-cp311-cp311-macosx_11_0_universal2.zip`, the directory without ".zip", and `fontmake-3.7.0.pyz`. |
| Paths.Components | download-fontmake-pyz-from-gh.py:80 | Parsing keeps no "" or "." part. Only the first part may hold '/', and it is the root "/" exactly when the string starts with '/'. |
| Paths.SingleComponent | download-fontmake-pyz-from-gh.py:80 | A relative name without '/' that is neither "" nor "." is one path component. |
| Paths.JoinPath | download-fontmake-pyz-from-gh.py:80 | An absolute right operand replaces the directory. A relative one appends its parsed components after the directory. |
| Paths.JoinTwoNames | download-fontmake-pyz-from-gh.py:80 | `dir / "a/b"` for plain names `a` and `b` appends both, so a version holding '/' makes nested paths. |
| Paths.ComponentsOfJoin | download-fontmake-pyz-from-gh.py:80 | Plain names joined by '/' parse back into exactly those names, in order, and `dir / "a/b/…"` appends them all after `dir`. |
| Paths.NameOfJoin | download-fontmake-pyz-from-gh.py:116 | The `name` of `dir / name` is `name` for a plain name. |
| Paths.Stem | download-fontmake-pyz-from-gh.py:116 | `stem` is either the whole name, or the part before a last '.' that is neither the first nor the last character. |
| Paths.StemOfSuffixed | download-fontmake-pyz-from-gh.py:116 | The stem of `base.ext` is `base` when the extension is non-empty and dot-free. This is how the extracted directory's name comes from the archive name. |
| Release.LatestReleaseTag | download-fontmake-pyz-from-gh.py:63-71 | A tag is returned exactly when the status is 200, and it is the release's `tag_name`. |
| Release.FirstNamed | download-fontmake-pyz-from-gh.py:93-96 | Finds the first asset whose name equals the wanted name exactly, or reports that none does. |
| Release.SelectAssetUrl | download-fontmake-pyz-from-gh.py:92-102 | A URL is selected exactly when the first asset of that name has a non-empty URL, and the URL is that asset's. An empty URL there means not found. |
| Release.FirstNamedIgnoresLater | download-fontmake-pyz-from-gh.py:93-96 | Once some asset matches, appending more assets does not change which asset the scan stops at. |
| Release.LaterAssetsIgnored | download-fontmake-pyz-from-gh.py:92-102 | Once some asset matches, appending more assets changes neither the match nor the selected URL. |
| Release.NoMatchNotFound | download-fontmake-pyz-from-gh.py:100-102 | With no asset of the name, nothing is selected. |
| Urls.PathPart | download-fontmake-pyz-from-gh.py:44 | urlsplit's path is the start of what follows the netloc, up to and not including the first '?' or '#': it holds neither, and the character after it, if any, is one of them. |
| Urls.Request | download-fontmake-pyz-from-gh.py:44-46 | A request target is never empty (an empty path is sent as "/") and holds no query or fragment. |
| Urls.QueryAndFragmentDropped | download-fontmake-pyz-from-gh.py:44-46 | Appending a query or fragment to a URL does not change the request a HEAD makes. |
| Urls.RequestOfParts | download-fontmake-pyz-from-gh.py:44-46 | A URL `scheme://netloc path suffix` is requested from `netloc` with `path` as the target, or "/" when the path is empty. A query or fragment in `suffix` is dropped. |
| Redirect.OnServer | download-fontmake-pyz-from-gh.py:44-47 | A server answers a URL exactly when it knows the (netloc, path) request the URL turns into. URLs that turn into the same request get the same answer. |
| Redirect.QueryStringIgnored | download-fontmake-pyz-from-gh.py:44-47 | On a server, `url?query` gets the same HEAD answer as `url`. |
| Redirect.Follow | download-fontmake-pyz-from-gh.py:43-55 | A resolved URL always has a final (non-followed) answer. A final answer at the start resolves to the URL itself. No answer is a connection failure, and a followed status without Location is MissingLocation. |
| Redirect.NonRedirectStatusStops | download-fontmake-pyz-from-gh.py:54-55 | Statuses 200, 308 and 404 return the URL asked for, unchanged. |
| Redirect.ResolvedIsFixedPoint | download-fontmake-pyz-from-gh.py:50-55 | Following a resolved URL again gives it back. |
| Redirect.ChainResolves | download-fontmake-pyz-from-gh.py:50-55 | A chain of N redirects ending at a final answer resolves to the chain's last URL, given N requests. |
| Redirect.ResolvedHasChain | download-fontmake-pyz-from-gh.py:50-55 | Conversely, every resolved URL ends such a chain from the starting URL. |
| Redirect.MoreFuelSameAnswer | download-fontmake-pyz-from-gh.py:50-53 | A bigger hop budget never changes a resolved answer. |
| FileSystem.WriteFile | download-fontmake-pyz-from-gh.py:108 | The download can be written exactly when its directory exists and its path is not a directory. It adds that one file. |
| FileSystem.ExtractAll | download-fontmake-pyz-from-gh.py:113-114 | Extraction raises exactly when a directory it must make is a file, existing or a member, or a file member lands on an existing directory. Otherwise it removes nothing. It writes every file member and every directory member under the output directory, with the directories that contain them, and adds nothing else. It keeps files and directories apart. |
| FileSystem.Rename | download-fontmake-pyz-from-gh.py:127 | Succeeds exactly when the source is a file, the target is not a directory, and the target's directory exists. The target then replaces any file there, the source is gone, and nothing else changes. |
| FileSystem.RemoveTree | download-fontmake-pyz-from-gh.py:131 | Exactly the files and directories at or under the root go. Errors are ignored. |
| FileSystem.Unlink | download-fontmake-pyz-from-gh.py:132 | Succeeds exactly when the path is a file, and removes only it. |
| Installer.Install | download-fontmake-pyz-from-gh.py:74-132 | A non-200 release answer stops with that status. A missing asset is reported exactly when the answer is 200 and no usable asset exists. Every stop of the network stages is the install's own outcome, with the filesystem unchanged. A stop after the write keeps the archive and removes nothing. Success names the versioned zip-app path. |
| Installer.Fetch | download-fontmake-pyz-from-gh.py:82-111 | The network stages stop without writing anything, or hand on the archive served at the URL the redirects from the first matching asset's URL end at. A redirect failure is reported exactly when following that URL does not resolve, and carries how the following ended. A download failure is reported exactly when it resolves to a URL that serves nothing, and names that URL. |
| Installer.AssetUrl | download-fontmake-pyz-from-gh.py:86-102 | A download URL is found exactly when the release answer is 200 and the first asset with the archive's name has a non-empty URL. Then it is that URL. |
| Installer.ChainDelivers | download-fontmake-pyz-from-gh.py:100-111 | A redirect chain from the asset's URL to a URL that serves an archive delivers that archive, given one request per URL of the chain. |
| Installer.DeliveredHasChain | download-fontmake-pyz-from-gh.py:100-111 | Conversely, a delivered archive is the one served at the end of a redirect chain from the asset's URL, no longer than the budget. |
| Installer.Unpack | download-fontmake-pyz-from-gh.py:107-132 | The write fails exactly when the archive's directory is missing or its path is a directory, and then nothing changes. Extraction raises exactly when the written archive clashes, and then only the archive was added. A stop after extraction leaves exactly the extracted state. Success needs `dir/fontmake` in the extracted state. |
| Installer.UnpackGating | download-fontmake-pyz-from-gh.py:113-124 | Once the archive is written and extracted, a missing directory stops the run with ExtractFailed, and a missing `fontmake` in it with FontmakeMissing. Either way the extracted state is left as it is. |
| Installer.Finish | download-fontmake-pyz-from-gh.py:116-132 | A missing directory gives ExtractFailed. A missing `fontmake` in it gives FontmakeMissing. With both present, the run stops with RenameFailed exactly when the rename fails. Success needs both, and any of these stops leaves the extracted state as it is. |
| Installer.FinishSucceeds | download-fontmake-pyz-from-gh.py:116-132 | With the directory and `fontmake` present, and the zip-app placeable outside the directory, the stages end installed with the archive and the directory's tree gone and the zip-app added. |
| Installer.FinishCleansUp | download-fontmake-pyz-from-gh.py:126-132 | After a successful rename, exactly the extracted directory's tree and the archive are removed. |
| Installer.InstalledThroughFinish | download-fontmake-pyz-from-gh.py:74-132 | A successful install got an archive from the network stages and wrote it, and its result is the stages after extraction applied to the extracted state. |
| Installer.InstallCleansUp | download-fontmake-pyz-from-gh.py:113-132 | A successful install removes the extracted tree and the archive from what the extraction left, and nothing else. Other top-level members the archive wrote stay. |
| Installer.MissingFontmakeStops | download-fontmake-pyz-from-gh.py:116-124 | An archive that does not supply `dir/fontmake`, where none was there before, stops the run after extraction. The rename is never reached, and the filesystem is exactly the extracted state, so no zip-app is made. |
| Installer.FinishKeepsArtifact | download-fontmake-pyz-from-gh.py:127-132 | The zip-app survives the clean-up when it lies outside the extracted directory and is not the archive. |
| Installer.PlainLayout | download-fontmake-pyz-from-gh.py:116-127 | For a version without '/', the zip-app and the archive are outside the extracted directory, and they differ. |
| Installer.PlainVersionKeepsArtifact | download-fontmake-pyz-from-gh.py:127-132 | For a version without '/', a successful install leaves `output_dir/fontmake-{version}.pyz`. |
| Installer.UnpackSucceeds | download-fontmake-pyz-from-gh.py:107-132 | When the archive can be written, holds the expected directory with `fontmake` in it, and the zip-app can be put in place, the install ends installed. It leaves exactly the earlier files plus the extracted ones, without the directory's tree and the archive, plus the zip-app. |
| Installer.AfterInstallIsCleaned | download-fontmake-pyz-from-gh.py:126-132 | The state stated directly is the extracted state after the clean-up. |
| Installer.InstallableAgain | download-fontmake-pyz-from-gh.py:113-127 | The state a successful install leaves is installable again with the same archive. |
| Installer.AfterInstallStable | download-fontmake-pyz-from-gh.py:126-132 | Cleaning up that state again with the same archive gives it back. |
| Installer.UnpackIdempotent | download-fontmake-pyz-from-gh.py:113-132 | Repeating the filesystem stages with the same archive on that result succeeds again and gives the same result. |
| Installer.InstallSucceeds | download-fontmake-pyz-from-gh.py:74-132 | A run whose network stages deliver such an archive ends installed, in exactly that state. |
| Installer.InstallIdempotent | download-fontmake-pyz-from-gh.py:74-132 | Running the install again with the same network answers, on its own result, gives the same result. |
| Installer.FlatInstallable | download-fontmake-pyz-from-gh.py:113-127 | Three distinct entries of an existing output directory form an installable layout when the archive holds `dir/fontmake`, the written archive extracts without a clash, and no conflicting directories exist. |
| Installer.PlainInstallable | download-fontmake-pyz-from-gh.py:113-127 | For a version without '/', such an archive in an existing output directory is installable when it extracts without a clash. |
| Installer.PlainVersionInstalls | download-fontmake-pyz-from-gh.py:74-132 | For a version without '/' and a well-formed archive, the install ends at `output_dir/fontmake-{version}.pyz` in the exact state above. |
| Installer.InstallerMain | download-fontmake-pyz-from-gh.py:135-141 | Without a latest tag (a non-200 answer), `main` returns 1, runs no install and changes nothing. Otherwise it installs that tag next to the script. An error escapes `main` exactly when the install stopped on one that escapes: a failed redirect, write, extraction, rename or unlink. Any other stop returns None. |
| Installer.MainAfterInstall | download-fontmake-pyz-from-gh.py:135-141 | With a latest tag, `main`'s install and filesystem are those of the install of that tag, and a stop that does not escape returns None. |
| Installer.MainRaisesWhenAssetUnreachable | download-fontmake-pyz-from-gh.py:135-141 | When the asset URL gets no answer to its HEAD request, the connection error escapes `main`, and nothing has been written. |
| Installer.MainInstallsLatest | download-fontmake-pyz-from-gh.py:135-141 | With latest tag "v3.7.0" and a well-formed archive, `main` leaves `fontmake-3.7.0.pyz` next to the script. |
| Installer.MainInstallsPlainVersion | download-fontmake-pyz-from-gh.py:135-141 | For a latest tag whose version has no '/' and a well-formed archive, `main` returns None with the zip-app installed next to the script. |
| LogScan.Scan | export-font-with-fontmake.py:159-161 | Every path the pattern captures is free of newlines. |
| LogScan.FindAllSaved | export-font-with-fontmake.py:159-161 | `re.findall` over the captured text gives the paths of the lines that match, in order, each without a newline. |
| LogScan.LineMatch | export-font-with-fontmake.py:159-161 | A line matches exactly when it starts with the pattern. The capture is the rest of the line, character for character. |
| LogScan.ScanMatchedLine | export-font-with-fontmake.py:160 | Where the pattern matches at a line start, the match lies within the line, `(.*)` captures the rest of it, and the walk resumes at the newline. |
| LogScan.ScanUnmatchedLine | export-font-with-fontmake.py:160 | Where the pattern does not match at a line start, nothing is found before the newline that ends the line. |
| LogScan.ScanLine | export-font-with-fontmake.py:159-161 | At a line start, the regular-expression walk finds what matching that line alone finds, and resumes at the line's end. |
| LogScan.ScanJoined | export-font-with-fontmake.py:159-161 | Newline-free lines joined by '\n' are scanned line by line. The walk finds what matching each line on its own finds. |
| LogScan.ScanIsLineByLine | export-font-with-fontmake.py:159-161 | For every text, `re.findall` with `^…(.*)$` under MULTILINE finds the same paths, in the same order, as splitting on '\n' and matching each line. |
| LogScan.SavedLineMatches | export-font-with-fontmake.py:160 | A line reporting a saved path gives that path back. |
| LogScan.SavedLogRoundTrip | export-font-with-fontmake.py:159-161 | Joining the "Saving" lines of newline-free paths with '\n' and extracting gives the paths back, in order. |
| LogScan.Collect | export-font-with-fontmake.py:159-161 | Matching line by line finds nothing exactly when no line matches, and finds the match of every line that matches, with at most one path per line. |
| LogScan.CollectedFromLines | export-font-with-fontmake.py:159-161 | Conversely, every path found is the match of one of the lines. |
| LogScan.CollectAppend | export-font-with-fontmake.py:159-161 | Matching the lines of two concatenated parts finds the first part's paths, then the second's. |
| LogScan.CarriageReturnKept | export-font-with-fontmake.py:159-161 | A '\r' before the newline stays at the end of the captured path. |
| LogScan.WildcardMatches | export-font-with-fontmake.py:160 | The '.' between "fontmake" and "font_project" matches any character except a newline. |
| LogScan.RevealTarget | export-font-with-fontmake.py:162-164 | Nothing is revealed exactly when no path was found. Otherwise the last path is revealed. |
| Supervisor.RunInMacroWindow | export-font-with-fontmake.py:52-92 | Every line read is echoed. `CalledProcessError` is raised exactly when `check` is on and the status is non-zero. Otherwise the status and command are passed through. With capture on, stdout is all the lines in order and stderr is "". With capture off, both are None. |
| Supervisor.ConcatTerminated | export-font-with-fontmake.py:72-77 | Capturing newline-terminated lines builds their '\n'-join plus a final newline. |
| Supervisor.CapturedLines | export-font-with-fontmake.py:72-77 | The buffer captured from newline-terminated lines splits on '\n' back into those lines and a final empty piece. |
| Supervisor.CapturedPaths | export-font-with-fontmake.py:72-77 | Searching the buffer captured from newline-terminated lines finds exactly the saved paths those lines report, in order. |
| Exporter.ScriptName | export-font-with-fontmake.py:44-49 | The zip-app the exporter runs has the name the installer gives the zip-app of version "3.7.0". |
| Exporter.ScriptPath | export-font-with-fontmake.py:49 | `FONTMAKE_SCRIPT` is that name as one entry of the script's directory, which is where the installer puts it. |
| Exporter.ScriptIsInstalledArtifact | export-font-with-fontmake.py:44-49 | The zip-app the exporter runs from its own directory is the one the installer leaves there for tag "v3.7.0" or "3.7.0". |
| Exporter.FontmakeCommand | export-font-with-fontmake.py:136-147 | The command has |args|+5 words: interpreter, zip-app, the options unchanged and in order, then "--output-dir", the folder and the source. |
| Exporter.CommandRoundTrip | export-font-with-fontmake.py:136-147 | Each part can be read back from the command, the options whole and in order. |
| Exporter.ProposedName | export-font-with-fontmake.py:127-129 | The name is the stem plus "-VF" exactly when the options contain "variable" or "variable-cff2". Otherwise it is the stem alone. |
| Exporter.ProposedNameForScriptOptions | export-font-with-fontmake.py:32-35 | The script's own options give "-VF". The options "-o ttf" would not. |
| Exporter.ProposedNameOfSource | export-font-with-fontmake.py:125-129 | Under the script's options, a source `base.ext` is proposed as `base-VF`. |
| Exporter.Decide | export-font-with-fontmake.py:101-133 | Fontmake is launched exactly when a font is open, the interpreter exists, the font has a non-empty path, has no unsaved edits, and a folder was chosen. Otherwise the first failing check, in that order, decides. |
| Exporter.ExportMain | export-font-with-fontmake.py:100-164 | Nothing runs and nothing is revealed unless the checks pass. Otherwise the command is the one above, the lines are echoed, "Done!" is reported exactly when the status is 0, and the reveal target is the last path found line by line in the captured text. |
| Exporter.RevealsLastReported | export-font-with-fontmake.py:159-164 | For newline-terminated output, the revealed file is the last saved path the lines report, and none when they report none. |

## Left out

- HTTPS connections, request headers, JSON decoding and `urlretrieve` are not modelled. Their results are inputs: the release answer (status, tag name and assets) and a map from final URL to archive. A final URL missing from that map stands for the `HTTPError` the script catches.
- The messages the scripts print are not modelled. Each stop is an `Outcome` or a `Decision` variant instead.
- `urlsplit` is modelled only as far as the HEAD request needs: scheme, `//netloc`, and a path cut at '?' or '#'. The model leaves out several details: stripping leading control characters, removing tab and newline characters, lower-casing the scheme, checking IPv6 brackets, and the port.
- A redirect without a `Location` header is not handled by the script. The model reports it as `MissingLocation`, a failure.
- `get_redirected_url` recurses without a bound. Redirect.Follow takes a hop budget (`fuel`) and reports `HopLimit` when it runs out. The script itself is not claimed to terminate.
- A connection error on the HEAD request escapes as an exception. The model reports it as `Unreachable`.
- `urlretrieve` can also raise `URLError` (a connection failure), which the script does not catch. The model has no outcome for it: a final URL either serves an archive or gives the `HTTPError` modelled as DownloadFailed.
- The archive's bytes and the zip format are not modelled. This leaves out a corrupt download (`BadZipFile`) and the sanitising of ".." and absolute member names. An archive is its set of member paths.
- Installer.Unpack: when `extractall` raises, the members extracted before the failing one stay on disk. The model's state then holds only the written archive, because which members come first depends on the archive's order, which is not modelled.
- The HEAD answers an install sees are any `Redirect.Network` (the `net` of `Installer.Remote`), and the install lemmas hold for every network. `Redirect.OnServer` is the network a server keyed by netloc and path gives, and Redirect.QueryStringIgnored is proved for it, not for the install.
- File contents, permissions and timestamps are not modelled.
- `str(Path(x))` normalisation is not modelled. The exporter's command holds the folder and source path strings as given.
- pathlib's special "//" root is not modelled.
- `HERE`, `Path.home()` and `__file__` are path inputs.
- Installer.PlainVersionKeepsArtifact: the zip-app's survival is proved only for versions without '/'. With a '/' the three names become nested paths, and the layout lemmas do not cover them.
- Installer.PlainVersionInstalls: likewise proved only for versions without '/'.
- Installer.InstallerMain: `main` returns 1 when no tag is found, but the script calls `main()` without `sys.exit`. The value never becomes the process's exit status, so the model records only the returned value.
- Supervisor.RunInMacroWindow: the `poll()` loop, `Popen` and line buffering are process concurrency and are not modelled. If the child exits before the first `poll()`, the script reads nothing. So the model takes the lines read as given and claims nothing about whether they are all the child wrote.
- The `CalledProcessError`'s stdout and stderr attributes are not modelled.
- Text-mode `Popen` translates "\r\n", and a lone "\r", into "\n" before the pattern sees the text. LogScan.CarriageReturnKept is about the pattern on the text as given.
- The "$ command" echo line (`shlex.quote`) is not modelled, nor `clearLog` and `showMacroWindow`.
- `Message` and the folder dialog are reduced to `Exporter.Host`'s inputs.
- `reveal_file_in_finder` and its shell command are a foreign call. The model records only the path it is given.
- `proposed_name` is computed by the script but never used. Exporter.ProposedName models the rule alone, and ExportMain does not carry the value.
- The code has no hop bound of its own. The model's budget is an input, not a constant.

=== FILE: common.dfy ===
/** Small shared datatypes. */
module Common {

  /** A value that may be absent; Python's `None` is `None` here. */
  datatype Option<+T> = None | Some(value: T)

  /** Either the outcome a stage stopped with or the value it passes on. */
  datatype Either<+L, +R> = Left(left: L) | Right(right: R)
}

=== FILE: exporter.dfy ===
/** The exporter script: the checks that decide whether fontmake is launched, the command
    line, the "-VF" name rule, and what `main` does with fontmake's exit status and log.
    The host application's state, the interpreter and script locations, the lines fontmake
    writes and its exit status are inputs. */
module Exporter {
  import opened Common
  import opened Paths
  import opened Naming
  import opened LogScan
  import opened Supervisor

  /** The fontmake options the script passes: build a TrueType-flavoured variable font. */
  const FontmakeArgs: seq<string> := ["-o", "variable"]

  /** The fontmake release the script expects next to it. */
  const FontmakeVersion: string := "3.7.0"

  /** The file name of the zip-app the script runs: the name the installer gives the
      zip-app of the expected release. */
  function ScriptName(): (name: string)
    ensures name == ArtifactName(FontmakeVersion)
  {
    "fontmake-" + FontmakeVersion + ".pyz"
  }

  /** Where the script looks for the zip-app: next to itself, in `scriptDir`, which is
      where the installer puts it. */
  function ScriptPath(scriptDir: Path): (p: Path)
    ensures p == scriptDir + [ScriptName()]
    ensures p == ArtifactPath(scriptDir, FontmakeVersion)
  {
    assert '/' !in FontmakeVersion;
    JoinPath(scriptDir, ScriptName())
  }

  /** The zip-app the exporter runs is the one the installer leaves in the same directory
      for the release tag "v3.7.0", or "3.7.0". */
  lemma ScriptIsInstalledArtifact(scriptDir: Path)
    ensures ScriptPath(scriptDir) == ArtifactPath(scriptDir, NormalizeVersion("v3.7.0"))
    ensures ScriptPath(scriptDir) == ArtifactPath(scriptDir, NormalizeVersion("3.7.0"))
    ensures ScriptName() == ArtifactName(NormalizeVersion("v3.7.0"))
  {
    StripsExactlyOneV("3.7.0");
  }

  /** `[python_exe, FONTMAKE_SCRIPT] + FONTMAKE_ARGS + ["--output-dir", output_dir,
      source_path]`, with the paths given as the strings they convert to. */
  function FontmakeCommand(pythonExe: string, script: string, args: seq<string>, outputDir: string, source: string)
    : (cmd: seq<string>)
    ensures |cmd| == |args| + 5
    ensures cmd[0] == pythonExe && cmd[1] == script
    ensures cmd[2..|args| + 2] == args
    ensures cmd[|args| + 2] == "--output-dir" && cmd[|args| + 3] == outputDir && cmd[|args| + 4] == source
  {
    [pythonExe, script] + args + ["--output-dir", outputDir, source]
  }

  /** The parts of a command line laid out as above. */
  datatype CommandParts = CommandParts(pythonExe: string, script: string, args: seq<string>, outputDir: string, source: string)

  /** Reads the parts back from a command line of at least five words. */
  function ParseCommand(cmd: seq<string>): Option<CommandParts>
  {
    if |cmd| < 5 || cmd[|cmd| - 3] != "--output-dir" then None
    else Some(CommandParts(cmd[0], cmd[1], cmd[2..|cmd| - 3], cmd[|cmd| - 2], cmd[|cmd| - 1]))
  }

  /** The command line keeps every part where it can be found again: the user arguments
      come back whole and in order. */
  lemma CommandRoundTrip(pythonExe: string, script: string, args: seq<string>, outputDir: string, source: string)
    ensures ParseCommand(FontmakeCommand(pythonExe, script, args, outputDir, source))
         == Some(CommandParts(pythonExe, script, args, outputDir, source))
  {
    var cmd := FontmakeCommand(pythonExe, script, args, outputDir, source);
    assert cmd[2..|cmd| - 3] == args;
  }

  /** The name the export would propose: the source's stem, with "-VF" when the options ask
      for a variable font. */
  function ProposedName(stem: string, args: seq<string>): (name: string)
    ensures name == stem + "-VF" <==> "variable" in args || "variable-cff2" in args
    ensures name == stem || name == stem + "-VF"
  {
    if "variable" in args || "variable-cff2" in args then stem + "-VF" else stem
  }

  /** The script's own options ask for a variable font; with "-o ttf" instead the stem
      would be proposed alone. */
  lemma ProposedNameForScriptOptions(stem: string)
    ensures ProposedName(stem, FontmakeArgs) == stem + "-VF"
    ensures ProposedName(stem, ["-o", "ttf"]) == stem
  {
    assert FontmakeArgs[1] == "variable";
    assert "variable" !in ["-o", "ttf"] && "variable-cff2" !in ["-o", "ttf"];
  }

  /** A source file `base.ext` is proposed as `base-VF` under the script's options. */
  lemma ProposedNameOfSource(base: string, ext: string)
    requires |base| > 0 && |ext| > 0 && '.' !in ext
    ensures ProposedName(Stem(base + "." + ext), FontmakeArgs) == base + "-VF"
  {
    StemOfSuffixed(base, ext);
    ProposedNameForScriptOptions(base);
  }

  /** The open document, if any: its file path and whether it has unsaved edits. */
  datatype Font = Font(filepath: Option<string>, edited: bool)

  /** What the host application reports: the open font, whether the interpreter exists, and
      the folder chosen in the dialog (None when it was cancelled). */
  datatype Host = Host(font: Option<Font>, pythonFound: bool, folder: Option<string>)

  /** Why `main` stopped before launching fontmake, or what it launches with. */
  datatype Decision =
    | NoFont                                   // "Open a font first."
    | NoPython                                 // the interpreter could not be found
    | NotSaved                                 // the font has no file path yet
    | UnsavedChanges                           // the document has unsaved edits
    | Cancelled                                // the folder dialog was cancelled
    | Launch(outputDir: string, source: string)

  /** A font path Python counts as given: present and not empty. */
  predicate HasPath(font: Font)
  {
    font.filepath.Some? && font.filepath.value != ""
  }

  /** Everything `main` needs before it launches fontmake. */
  predicate Ready(host: Host)
  {
    && host.font.Some? && host.pythonFound && HasPath(host.font.value)
    && !host.font.value.edited && host.folder.Some?
  }

  /** The checks of `main`, in order; the first that fails decides. */
  function Decide(host: Host): (d: Decision)
    ensures d.Launch? <==> Ready(host)
    ensures d.Launch? ==> d == Launch(host.folder.value, host.font.value.filepath.value)
    ensures d == NoFont <==> host.font.None?
    ensures d == NoPython <==> host.font.Some? && !host.pythonFound
    ensures d == NotSaved <==> host.font.Some? && host.pythonFound && !HasPath(host.font.value)
    ensures d == UnsavedChanges <==>
              host.font.Some? && host.pythonFound && HasPath(host.font.value) && host.font.value.edited
    ensures d == Cancelled <==>
              host.font.Some? && host.pythonFound && HasPath(host.font.value) && !host.font.value.edited
              && host.folder.None?
  {
    match host.font
    case None => NoFont
    case Some(font) =>
      if !host.pythonFound then NoPython
      else if font.filepath.None? || font.filepath.value == "" then NotSaved
      else if font.edited then UnsavedChanges
      else if host.folder.None? then Cancelled
      else Launch(host.folder.value, font.filepath.value)
  }

  /** How the export ended once fontmake was launched: "Done!" or the failure message with
      the exit status. */
  datatype Status = Done | Failed(code: int)

  /** What `main` did: the decision, the command it ran, the lines echoed to the console,
      the status it reported, and the file it asked the file browser to show. */
  datatype Export = Export(decision: Decision, command: Option<seq<string>>, console: seq<string>,
                           status: Option<Status>, shown: Option<string>)

  /** `main()`, with `pythonExe` and `script` the interpreter's and zip-app's paths as
      strings, and fontmake writing `linesRead` and exiting with `returncode`. */
  method ExportMain(host: Host, pythonExe: string, script: string, linesRead: seq<string>, returncode: int)
    returns (e: Export)
    ensures e.decision == Decide(host)
    ensures !e.decision.Launch? ==> e.command.None? && e.console == [] && e.status.None? && e.shown.None?
    ensures e.decision.Launch? ==>
              e.command == Some(FontmakeCommand(pythonExe, script, FontmakeArgs,
                                                e.decision.outputDir, e.decision.source))
    ensures e.decision.Launch? ==> e.console == linesRead
    ensures e.decision.Launch? ==> (e.status == Some(Done) <==> returncode == 0)
    ensures e.decision.Launch? && returncode != 0 ==> e.status == Some(Failed(returncode))
    ensures e.decision.Launch? ==> e.shown == RevealTarget(ExtractPaths(Concat(linesRead)))
  {
    var d := Decide(host);
    if !d.Launch? {
      return Export(d, None, [], None, None);
    }
    var cmd := FontmakeCommand(pythonExe, script, FontmakeArgs, d.outputDir, d.source);
    var run := RunInMacroWindow(cmd, false, true, linesRead, returncode);
    var completed := run.outcome.completed;
    var status := if completed.returncode == 0 then Done else Failed(completed.returncode);
    var paths := FindAllSaved(completed.stdout.value);
    ScanIsLineByLine(completed.stdout.value);
    return Export(d, Some(cmd), run.console, Some(status), RevealTarget(paths));
  }

  /** When fontmake reports several saved files, only the last is revealed; when it reports
      none, nothing is. */
  lemma RevealsLastReported(lines: seq<string>)
    requires forall i :: 0 <= i < |lines| ==> '\n' !in lines[i]
    ensures RevealTarget(ExtractPaths(Concat(Terminated(lines)))) == RevealTarget(Collect(lines))
    ensures |Collect(lines)| == 0 ==> RevealTarget(ExtractPaths(Concat(Terminated(lines)))).None?
  {
    CapturedPaths(lines);
    ScanIsLineByLine(Concat(Terminated(lines)));
  }
}

=== FILE: filesystem.dfy ===
/** An abstract filesystem, as sets of file and directory paths, and the effects the
    installer has on it: writing the download, `extractall`, `rename`, `rmtree` and
    `unlink`. File contents are not modelled. */
module FileSystem {
  import opened Common
  import opened Paths

  datatype Fs = Fs(files: set<Path>, dirs: set<Path>)

  /** A member of an archive, as the relative path it is extracted to. */
  type Entry = p: Path | |p| > 0 witness ["x"]

  /** An archive's file members and directory members. */
  datatype Archive = Archive(files: set<Entry>, dirs: set<Entry>)

  /** `p` is `root` or lies inside it. */
  predicate Under(p: Path, root: Path)
  {
    root <= p
  }

  /** The proper leading parts of a path: the directories that contain it. */
  function Ancestors(p: Path): (r: set<Path>)
    ensures forall k :: 1 <= k < |p| ==> p[..k] in r
    ensures forall a :: a in r ==> a < p && |a| >= 1
  {
    set k | 1 <= k < |p| :: p[..k]
  }

  /** Writing a new file: its directory must exist and the path must not be a directory. */
  function WriteFile(fs: Fs, p: Path): (r: Option<Fs>)
    ensures r.Some? <==> |p| > 0 && p[..|p| - 1] in fs.dirs && p !in fs.dirs
    ensures r.Some? ==> r.value.files == fs.files + {p} && r.value.dirs == fs.dirs
  {
    if |p| > 0 && p[..|p| - 1] in fs.dirs && p !in fs.dirs then Some(Fs(fs.files + {p}, fs.dirs)) else None
  }

  /** Paths under `out` of the archive's file members. */
  function MemberFiles(out: Path, z: Archive): set<Path>
  {
    set f | f in z.files :: out + f
  }

  /** Paths under `out` of the directories extraction creates: each directory member and
      every directory that contains a member. */
  function MemberDirs(out: Path, z: Archive): set<Path>
  {
    (set d | d in z.dirs :: out + d)
    + (set e, a | e in z.files + z.dirs && a in Ancestors(e) :: out + a)
  }

  /** What `extractall(out)` needs to get through: no directory it makes (a directory member
      or one that contains a member) is a file already there or a file member, and no file
      member lands on an existing directory. Each clash raises, whatever the member order:
      `mkdir` or `makedirs` over a file, or `open` under a file or on a directory. */
  predicate Extractable(fs: Fs, out: Path, z: Archive)
  {
    && MemberDirs(out, z) !! fs.files + MemberFiles(out, z)
    && MemberFiles(out, z) !! fs.dirs
  }

  /** `extractall(out)`: every member is written under `out` together with the directories
      that contain it; nothing is removed. None when extraction raises. */
  function ExtractAll(fs: Fs, out: Path, z: Archive): (r: Option<Fs>)
    ensures r.Some? <==> Extractable(fs, out, z)
    ensures r.Some? ==> fs.files <= r.value.files && fs.dirs <= r.value.dirs
    ensures r.Some? ==> forall f :: f in z.files ==> out + f in r.value.files
    ensures r.Some? ==> forall d :: d in z.dirs ==> out + d in r.value.dirs
    ensures r.Some? ==> forall f, k :: f in z.files + z.dirs && 1 <= k < |f| ==> out + f[..k] in r.value.dirs
    ensures r.Some? ==> forall p :: p in r.value.files ==> p in fs.files || p in MemberFiles(out, z)
    ensures r.Some? ==> forall p :: p in r.value.dirs ==> p in fs.dirs || p in MemberDirs(out, z)
    ensures r.Some? && fs.files !! fs.dirs ==> r.value.files !! r.value.dirs
  {
    if Extractable(fs, out, z) then Some(Fs(fs.files + MemberFiles(out, z), fs.dirs + MemberDirs(out, z)))
    else None
  }

  /** `Path.rename(src, dst)`: fails when `src` is not a file, `dst` is a directory or the
      directory of `dst` does not exist; otherwise `dst` replaces any file there. */
  function Rename(fs: Fs, src: Path, dst: Path): (r: Option<Fs>)
    ensures r.Some? <==> src in fs.files && |dst| > 0 && dst !in fs.dirs && dst[..|dst| - 1] in fs.dirs
    ensures r.Some? ==> dst in r.value.files && (src != dst ==> src !in r.value.files)
    ensures r.Some? ==> forall p :: p != src && p != dst ==> (p in r.value.files <==> p in fs.files)
    ensures r.Some? ==> r.value.dirs == fs.dirs
  {
    if src in fs.files && |dst| > 0 && dst !in fs.dirs && dst[..|dst| - 1] in fs.dirs
    then Some(Fs(fs.files - {src} + {dst}, fs.dirs))
    else None
  }

  /** `shutil.rmtree(root, ignore_errors=True)`: the tree at `root` goes, nothing else does. */
  function RemoveTree(fs: Fs, root: Path): (r: Fs)
    ensures forall p :: p in r.files <==> p in fs.files && !Under(p, root)
    ensures forall p :: p in r.dirs <==> p in fs.dirs && !Under(p, root)
  {
    Fs(set p | p in fs.files && !Under(p, root), set p | p in fs.dirs && !Under(p, root))
  }

  /** `Path.unlink()`: fails unless `p` is a file; removes only `p`. */
  function Unlink(fs: Fs, p: Path): (r: Option<Fs>)
    ensures r.Some? <==> p in fs.files
    ensures r.Some? ==> r.value.files == fs.files - {p} && r.value.dirs == fs.dirs
  {
    if p in fs.files then Some(Fs(fs.files - {p}, fs.dirs)) else None
  }
}

=== FILE: installer.dfy ===
/** `download_and_extract_zip` and `main` of the installer script: each stage runs only when
    the one before it succeeded; a failing stage returns at once and leaves on disk whatever
    the earlier stages wrote. The network, the download and the archive are inputs. */
module Installer {
  import opened Common
  import opened Paths
  import opened Naming
  import opened Release
  import opened Redirect
  import opened FileSystem

  /** Where a run stopped. */
  datatype Outcome =
    | ReleaseFetchFailed(status: int)   // the release-by-tag answer was not 200
    | AssetNotFound(archiveName: string) // no usable asset of the archive's name
    | RedirectFailed(how: Resolution)   // following the URL raised; the error escapes
    | DownloadFailed(url: string)       // the download raised HTTPError
    | WriteFailed(archive: Path)        // the archive could not be written; the error escapes
    | ExtractRaised(archive: Path)      // `extractall` raised on a clash; the error escapes
    | ExtractFailed(archive: Path)      // the expected directory is not there after extraction
    | FontmakeMissing(dir: Path)        // the directory holds no file named "fontmake"
    | RenameFailed(artifact: Path)      // the rename raised; the error escapes
    | UnlinkFailed(archive: Path)       // removing the archive raised; the error escapes
    | Installed(artifact: Path)         // the zip-app is in place and the leftovers are gone
  {
    /** The run stopped before anything was written. */
    predicate NothingWritten()
    {
      ReleaseFetchFailed? || AssetNotFound? || RedirectFailed? || DownloadFailed? || WriteFailed?
    }

    /** The run stopped after extraction and before anything was renamed or removed. */
    predicate StoppedAfterExtract()
    {
      ExtractFailed? || FontmakeMissing? || RenameFailed?
    }

    /** The run stopped after the archive was written and before anything was removed. */
    predicate StoppedAfterWrite()
    {
      ExtractRaised? || StoppedAfterExtract()
    }

    /** The stop is an error that escapes `download_and_extract_zip` instead of a return. */
    predicate Escapes()
    {
      RedirectFailed? || WriteFailed? || ExtractRaised? || RenameFailed? || UnlinkFailed?
    }
  }

  datatype InstallResult = InstallResult(outcome: Outcome, fs: Fs)

  /** The three paths a run uses: the downloaded archive, the directory it should unpack
      to, and the versioned zip-app. */
  datatype Layout = Layout(archive: Path, dir: Path, artifact: Path)
  {
    /** The executable expected inside the unpacked directory. */
    function Executable(): Path
    {
      dir + ["fontmake"]
    }
  }

  /** The layout for a version in an output directory. Whatever the version, the archive
      and the zip-app are written inside the output directory, since their names start
      with "fontmake-" and so are never absolute. */
  function LayoutFor(out: Path, version: string): (l: Layout)
    ensures l.archive == ArchivePath(out, version)
    ensures l.dir == ExtractedDir(out, version)
    ensures l.artifact == ArtifactPath(out, version)
    ensures out <= l.archive && out <= l.artifact
  {
    assert ArchiveName(version)[0] == 'f' && ArtifactName(version)[0] == 'f';
    Layout(ArchivePath(out, version), ExtractedDir(out, version), ArtifactPath(out, version))
  }

  /** The inputs that stand for the network: the release-by-tag answer, the HEAD answers,
      the redirect budget, and the archive each final URL serves (a URL that serves none
      fails with HTTPError). The HEAD answers are any network; `OnServer` gives the one a
      server keyed by netloc and path makes. */
  datatype Remote = Remote(release: ReleaseResponse, net: Network, fuel: nat, downloads: map<string, Archive>)

  /** `download_and_extract_zip(tag, out)` on filesystem `fs`. */
  function Install(tag: string, out: Path, fs: Fs, remote: Remote): (r: InstallResult)
    ensures remote.release.status != 200 ==> r.outcome == ReleaseFetchFailed(remote.release.status)
    ensures r.outcome.AssetNotFound? <==>
              remote.release.status == 200
              && SelectAssetUrl(remote.release.release.assets, ArchiveName(NormalizeVersion(tag))).None?
    ensures r.outcome.NothingWritten() ==> r.fs == fs
    ensures r.outcome.StoppedAfterWrite() ==>
              && ArchivePath(out, NormalizeVersion(tag)) in r.fs.files
              && fs.files <= r.fs.files && fs.dirs <= r.fs.dirs
    ensures r.outcome.Installed? ==> r.outcome.artifact == ArtifactPath(out, NormalizeVersion(tag))
    ensures Fetch(ArchiveName(NormalizeVersion(tag)), remote).Left? ==>
              r == InstallResult(Fetch(ArchiveName(NormalizeVersion(tag)), remote).left, fs)
  {
    var version := NormalizeVersion(tag);
    var fetched := Fetch(ArchiveName(version), remote);
    if fetched.Left? then
      assert fetched.left.NothingWritten();
      InstallResult(fetched.left, fs)
    else
      var r := Unpack(LayoutFor(out, version), out, fs, fetched.right);
      assert !r.outcome.NothingWritten() || r.outcome.WriteFailed?;
      r
  }

  /** The download URL the release lists for the archive, once the release answer is 200:
      the non-empty URL of the first asset with the archive's name. */
  function AssetUrl(archiveName: string, remote: Remote): (u: Option<string>)
    ensures u.Some? <==>
              remote.release.status == 200 && SelectAssetUrl(remote.release.release.assets, archiveName).Some?
    ensures u.Some? ==> u == SelectAssetUrl(remote.release.release.assets, archiveName)
    ensures u.Some? ==> u.value != ""
    ensures u.Some? <==>
              && remote.release.status == 200
              && (exists i :: FirstMatchAt(remote.release.release.assets, archiveName, i)
                              && remote.release.release.assets[i].downloadUrl != "")
  {
    if remote.release.status != 200 then None else SelectAssetUrl(remote.release.release.assets, archiveName)
  }

  /** The network stages: the release's asset list, the first asset of the archive's name,
      the redirects from its URL, and the download of the URL they end at. */
  function Fetch(archiveName: string, remote: Remote): (r: Either<Outcome, Archive>)
    ensures r.Left? ==> r.left.NothingWritten() && !r.left.WriteFailed?
    ensures remote.release.status != 200 ==> r == Left(ReleaseFetchFailed(remote.release.status))
    ensures r.Left? && r.left.AssetNotFound? <==>
              remote.release.status == 200 && SelectAssetUrl(remote.release.release.assets, archiveName).None?
    ensures r.Left? && r.left.RedirectFailed? <==>
              && AssetUrl(archiveName, remote).Some?
              && !Follow(remote.net, AssetUrl(archiveName, remote).value, remote.fuel).Resolved?
    ensures r.Left? && r.left.RedirectFailed? ==>
              r.left.how == Follow(remote.net, AssetUrl(archiveName, remote).value, remote.fuel)
    ensures r.Left? && r.left.DownloadFailed? <==>
              && AssetUrl(archiveName, remote).Some?
              && Follow(remote.net, AssetUrl(archiveName, remote).value, remote.fuel).Resolved?
              && Follow(remote.net, AssetUrl(archiveName, remote).value, remote.fuel).url !in remote.downloads
    ensures r.Left? && r.left.DownloadFailed? ==>
              r.left.url == Follow(remote.net, AssetUrl(archiveName, remote).value, remote.fuel).url
    ensures r.Left? && r.left.AssetNotFound? ==> r.left.archiveName == archiveName
    ensures r.Right? ==>
              && AssetUrl(archiveName, remote).Some?
              && Follow(remote.net, AssetUrl(archiveName, remote).value, remote.fuel).Resolved?
              && r.right == remote.downloads[Follow(remote.net, AssetUrl(archiveName, remote).value, remote.fuel).url]
  {
    if remote.release.status != 200 then Left(ReleaseFetchFailed(remote.release.status))
    else
      var url := SelectAssetUrl(remote.release.release.assets, archiveName);
      if url.None? then Left(AssetNotFound(archiveName))
      else
        var resolved := Follow(remote.net, url.value, remote.fuel);
        if !resolved.Resolved? then Left(RedirectFailed(resolved))
        else if resolved.url !in remote.downloads then Left(DownloadFailed(resolved.url))
        else Right(remote.downloads[resolved.url])
  }

  /** A redirect chain from the asset's URL to a URL that serves an archive delivers that
      archive, given one HEAD request per URL of the chain. */
  lemma ChainDelivers(archiveName: string, remote: Remote, urls: seq<string>)
    requires RedirectChain(remote.net, urls)
    requires AssetUrl(archiveName, remote) == Some(urls[0])
    requires remote.fuel >= |urls|
    requires urls[|urls| - 1] in remote.downloads
    ensures Fetch(archiveName, remote) == Right(remote.downloads[urls[|urls| - 1]])
  {
    ChainResolves(remote.net, urls, remote.fuel);
  }

  /** Conversely, an archive the network stages deliver is the one served at the end of a
      redirect chain from the asset's URL, no longer than the budget. */
  lemma DeliveredHasChain(archiveName: string, remote: Remote)
    requires Fetch(archiveName, remote).Right?
    ensures exists urls :: && RedirectChain(remote.net, urls)
                           && AssetUrl(archiveName, remote) == Some(urls[0])
                           && |urls| <= remote.fuel
                           && urls[|urls| - 1] in remote.downloads
                           && Fetch(archiveName, remote).right == remote.downloads[urls[|urls| - 1]]
  {
    var url := AssetUrl(archiveName, remote).value;
    ResolvedHasChain(remote.net, url, remote.fuel);
  }

  /** What writing the archive and extracting it into `out` leave, when neither fails. */
  function Extracted(l: Layout, out: Path, fs: Fs, z: Archive): Fs
  {
    Fs(fs.files + {l.archive} + MemberFiles(out, z), fs.dirs + MemberDirs(out, z))
  }

  /** The filesystem stages: write the archive, extract it into `out`, then finish. */
  function Unpack(l: Layout, out: Path, fs: Fs, archive: Archive): (r: InstallResult)
    ensures r.outcome.WriteFailed? <==> WriteFile(fs, l.archive).None?
    ensures r.outcome.WriteFailed? ==> r.fs == fs
    ensures r.outcome.NothingWritten() ==> r.outcome.WriteFailed?
    ensures r.outcome.ExtractRaised? <==>
              WriteFile(fs, l.archive).Some? && !Extractable(Fs(fs.files + {l.archive}, fs.dirs), out, archive)
    ensures r.outcome.ExtractRaised? ==> r.fs == Fs(fs.files + {l.archive}, fs.dirs)
    ensures r.outcome.StoppedAfterExtract() ==> r.fs == Extracted(l, out, fs, archive)
    ensures r.outcome.StoppedAfterWrite() ==>
              l.archive in r.fs.files && fs.files <= r.fs.files && fs.dirs <= r.fs.dirs
    ensures r.outcome.Installed? ==> l.Executable() in Extracted(l, out, fs, archive).files
    ensures r.outcome.Installed? ==> r.outcome.artifact == l.artifact
  {
    var written := WriteFile(fs, l.archive);
    if written.None? then InstallResult(WriteFailed(l.archive), fs)
    else
      var extracted := ExtractAll(written.value, out, archive);
      if extracted.None? then InstallResult(ExtractRaised(l.archive), written.value)
      else Finish(l, extracted.value)
  }

  /** Once the archive is written and extracted, the checks on the extracted state decide:
      without the expected directory the run stops with ExtractFailed, without `fontmake`
      in it with FontmakeMissing, and either way the extracted state is left as it is. */
  lemma UnpackGating(l: Layout, out: Path, fs: Fs, z: Archive)
    requires WriteFile(fs, l.archive).Some?
    requires Extractable(Fs(fs.files + {l.archive}, fs.dirs), out, z)
    ensures Unpack(l, out, fs, z) == Finish(l, Extracted(l, out, fs, z))
    ensures l.dir !in fs.dirs + MemberDirs(out, z) ==>
              Unpack(l, out, fs, z) == InstallResult(ExtractFailed(l.archive), Extracted(l, out, fs, z))
    ensures l.dir in fs.dirs + MemberDirs(out, z) && l.Executable() !in fs.files + MemberFiles(out, z) + {l.archive} ==>
              Unpack(l, out, fs, z) == InstallResult(FontmakeMissing(l.dir), Extracted(l, out, fs, z))
  {
    assert ExtractAll(Fs(fs.files + {l.archive}, fs.dirs), out, z) == Some(Extracted(l, out, fs, z));
  }

  /** The stages after extraction: check the directory and the executable, rename it, then
      remove the directory and the archive. */
  function Finish(l: Layout, extracted: Fs): (r: InstallResult)
    requires l.archive in extracted.files
    ensures l.dir !in extracted.dirs ==> r.outcome == ExtractFailed(l.archive)
    ensures l.dir in extracted.dirs && l.Executable() !in extracted.files ==> r.outcome == FontmakeMissing(l.dir)
    ensures l.dir in extracted.dirs && l.Executable() in extracted.files ==>
              (r.outcome == RenameFailed(l.artifact) <==> Rename(extracted, l.Executable(), l.artifact).None?)
    ensures r.outcome.Installed? ==> l.dir in extracted.dirs && l.Executable() in extracted.files
    ensures r.outcome.StoppedAfterExtract() ==> r.fs == extracted
    ensures r.outcome.Installed? || r.outcome.StoppedAfterExtract() || r.outcome.UnlinkFailed?
    ensures r.outcome.Installed? ==> r.outcome.artifact == l.artifact
  {
    if l.dir !in extracted.dirs then InstallResult(ExtractFailed(l.archive), extracted)
    else if l.Executable() !in extracted.files then InstallResult(FontmakeMissing(l.dir), extracted)
    else
      var renamed := Rename(extracted, l.Executable(), l.artifact);
      if renamed.None? then InstallResult(RenameFailed(l.artifact), extracted)
      else
        var cleaned := RemoveTree(renamed.value, l.dir);
        var unlinked := Unlink(cleaned, l.archive);
        if unlinked.None? then InstallResult(UnlinkFailed(l.archive), cleaned)
        else InstallResult(Installed(l.artifact), unlinked.value)
  }

  /** What a successful install leaves, compared with the state `before` it changed: the
      extracted directory and the archive are gone, and nothing else was removed. */
  ghost predicate CleanedUp(before: Fs, l: Layout, after: Fs)
  {
    && l.archive !in after.files
    && (forall p :: p in after.files ==> !Under(p, l.dir))
    && (forall p :: p in after.dirs ==> !Under(p, l.dir))
    && (forall p :: p in before.files && p != l.archive && !Under(p, l.dir) ==> p in after.files)
    && (forall p :: p in before.dirs && !Under(p, l.dir) ==> p in after.dirs)
  }

  /** The clean-up after a successful rename: exactly the extracted directory and the archive
      are removed. */
  lemma FinishCleansUp(l: Layout, extracted: Fs)
    requires l.archive in extracted.files
    requires Finish(l, extracted).outcome.Installed?
    ensures CleanedUp(extracted, l, Finish(l, extracted).fs)
  {
    var renamed := Rename(extracted, l.Executable(), l.artifact).value;
    var cleaned := RemoveTree(renamed, l.dir);
    var after := Finish(l, extracted).fs;
    assert after == Unlink(cleaned, l.archive).value;
    forall p | p in extracted.files && p != l.archive && !Under(p, l.dir)
      ensures p in after.files
    {
      assert p != l.Executable();
    }
  }

  /** A successful install went through the network stages, the write and the extraction,
      and its result is that of the stages after extraction. */
  lemma InstalledThroughFinish(tag: string, out: Path, fs: Fs, remote: Remote)
    requires Install(tag, out, fs, remote).outcome.Installed?
    ensures Fetch(ArchiveName(NormalizeVersion(tag)), remote).Right?
    ensures WriteFile(fs, LayoutFor(out, NormalizeVersion(tag)).archive).Some?
    ensures Extractable(Fs(fs.files + {LayoutFor(out, NormalizeVersion(tag)).archive}, fs.dirs), out,
                        Fetch(ArchiveName(NormalizeVersion(tag)), remote).right)
    ensures Install(tag, out, fs, remote)
         == Finish(LayoutFor(out, NormalizeVersion(tag)),
                   Extracted(LayoutFor(out, NormalizeVersion(tag)), out, fs,
                             Fetch(ArchiveName(NormalizeVersion(tag)), remote).right))
  {
  }

  /** A successful install removes exactly the extracted directory and the archive from
      what the extraction left; everything else, including other top-level members the
      archive unpacked, stays. */
  lemma InstallCleansUp(tag: string, out: Path, fs: Fs, remote: Remote, z: Archive)
    requires Fetch(ArchiveName(NormalizeVersion(tag)), remote) == Right(z)
    requires Install(tag, out, fs, remote).outcome.Installed?
    ensures CleanedUp(Extracted(LayoutFor(out, NormalizeVersion(tag)), out, fs, z),
                      LayoutFor(out, NormalizeVersion(tag)), Install(tag, out, fs, remote).fs)
  {
    var version := NormalizeVersion(tag);
    var l := LayoutFor(out, version);
    InstalledThroughFinish(tag, out, fs, remote);
    FinishCleansUp(l, Extracted(l, out, fs, z));
  }

  /** An archive that does not supply `dir/fontmake`, where no such file was there before,
      stops the run after extraction: the extracted state is left as it is, so no zip-app
      is made. */
  lemma MissingFontmakeStops(tag: string, out: Path, fs: Fs, remote: Remote, z: Archive)
    requires Fetch(ArchiveName(NormalizeVersion(tag)), remote) == Right(z)
    requires WriteFile(fs, ArchivePath(out, NormalizeVersion(tag))).Some?
    requires Extractable(Fs(fs.files + {ArchivePath(out, NormalizeVersion(tag))}, fs.dirs), out, z)
    requires ExtractedDir(out, NormalizeVersion(tag)) + ["fontmake"]
             !in fs.files + MemberFiles(out, z) + {ArchivePath(out, NormalizeVersion(tag))}
    ensures Install(tag, out, fs, remote).outcome.StoppedAfterExtract()
    ensures !Install(tag, out, fs, remote).outcome.RenameFailed?
    ensures Install(tag, out, fs, remote).fs == Extracted(LayoutFor(out, NormalizeVersion(tag)), out, fs, z)
  {
    var l := LayoutFor(out, NormalizeVersion(tag));
    assert Install(tag, out, fs, remote) == Unpack(l, out, fs, z);
    UnpackGating(l, out, fs, z);
  }

  /** The renamed zip-app survives the clean-up when it lies outside the extracted directory
      and is not the archive. */
  lemma FinishKeepsArtifact(l: Layout, extracted: Fs)
    requires l.archive in extracted.files
    requires Finish(l, extracted).outcome.Installed?
    requires !Under(l.artifact, l.dir) && l.artifact != l.archive
    ensures l.artifact in Finish(l, extracted).fs.files
  {
    var renamed := Rename(extracted, l.Executable(), l.artifact).value;
    assert l.artifact in renamed.files;
  }

  /** For a version without '/', the layout is three distinct entries of the output
      directory, so neither the zip-app nor the archive lies inside the extracted directory. */
  lemma PlainLayout(out: Path, version: string)
    requires '/' !in version
    ensures LayoutFor(out, version)
         == Layout(out + [ArchiveName(version)], out + [ExtractedName(version)], out + [ArtifactName(version)])
    ensures !Under(LayoutFor(out, version).artifact, LayoutFor(out, version).dir)
    ensures !Under(LayoutFor(out, version).archive, LayoutFor(out, version).dir)
    ensures LayoutFor(out, version).artifact != LayoutFor(out, version).archive
  {
    PlainVersionNames(out, version);
    var l := LayoutFor(out, version);
    assert l.artifact[|out|] != l.dir[|out|];
    assert l.archive[|out|] != l.dir[|out|];
  }

  /** For a version without '/', a successful install leaves the zip-app at
      `out/fontmake-{version}.pyz`. */
  lemma PlainVersionKeepsArtifact(tag: string, out: Path, fs: Fs, remote: Remote)
    requires '/' !in NormalizeVersion(tag)
    requires Install(tag, out, fs, remote).outcome.Installed?
    ensures out + [ArtifactName(NormalizeVersion(tag))] in Install(tag, out, fs, remote).fs.files
  {
    var version := NormalizeVersion(tag);
    var l := LayoutFor(out, version);
    InstalledThroughFinish(tag, out, fs, remote);
    PlainLayout(out, version);
    FinishKeepsArtifact(l, Extracted(l, out, fs, Fetch(ArchiveName(version), remote).right));
  }

  /** The state a successful install leaves, stated directly: what was there and what the
      archive unpacked, minus the extracted directory's tree and the archive, plus the
      zip-app. */
  function AfterInstall(fs: Fs, l: Layout, out: Path, z: Archive): Fs
  {
    Fs((set p | p in fs.files + MemberFiles(out, z) && p != l.archive && !Under(p, l.dir)) + {l.artifact},
       set p | p in fs.dirs + MemberDirs(out, z) && !Under(p, l.dir))
  }

  /** What the filesystem stages need to get through: the archive can be written and then
      extracted without a clash, the archive supplies the expected directory and the executable in it, the zip-app can be put in
      place, and neither the archive nor the zip-app lies inside the extracted directory. */
  ghost predicate Installable(l: Layout, out: Path, fs: Fs, z: Archive)
  {
    && |l.archive| > 0 && l.archive[..|l.archive| - 1] in fs.dirs && l.archive !in fs.dirs
    && l.dir in MemberDirs(out, z) && l.Executable() in MemberFiles(out, z)
    && Extractable(Fs(fs.files + {l.archive}, fs.dirs), out, z)
    && |l.artifact| > 0 && l.artifact[..|l.artifact| - 1] in fs.dirs
    && l.artifact !in fs.dirs && l.artifact !in MemberDirs(out, z)
    && !Under(l.archive, l.dir) && !Under(l.artifact, l.dir) && l.artifact != l.archive
  }

  /** What the clean-up leaves of an extracted state: the zip-app added, the archive and the
      extracted directory's tree gone. */
  function Cleaned(l: Layout, extracted: Fs): Fs
  {
    Fs((set p | p in extracted.files && p != l.archive && !Under(p, l.dir)) + {l.artifact},
       set p | p in extracted.dirs && !Under(p, l.dir))
  }

  /** When the extracted state has the directory and `fontmake` in it and the zip-app can be
      put in place outside that directory, the stages after extraction succeed and leave
      exactly the cleaned state. */
  lemma FinishSucceeds(l: Layout, extracted: Fs)
    requires l.archive in extracted.files
    requires l.dir in extracted.dirs && l.Executable() in extracted.files
    requires |l.artifact| > 0 && l.artifact[..|l.artifact| - 1] in extracted.dirs && l.artifact !in extracted.dirs
    requires !Under(l.archive, l.dir) && !Under(l.artifact, l.dir) && l.artifact != l.archive
    ensures Finish(l, extracted) == InstallResult(Installed(l.artifact), Cleaned(l, extracted))
  {
    var renamed := Rename(extracted, l.Executable(), l.artifact).value;
    var cleaned := RemoveTree(renamed, l.dir);
    assert l.archive != l.Executable();
    assert l.archive in cleaned.files;
    var after := Unlink(cleaned, l.archive).value;
    var expected := Cleaned(l, extracted);
    assert after.files == expected.files by {
      forall p | p in after.files ensures p in expected.files {
        if p != l.artifact {
          assert p in extracted.files && p != l.archive && !Under(p, l.dir);
        }
      }
      forall p | p in expected.files ensures p in after.files {
        if p != l.artifact {
          assert p != l.Executable();
        }
      }
    }
    assert after.dirs == expected.dirs;
  }

  /** The state stated directly is the cleaned extracted state. */
  lemma AfterInstallIsCleaned(fs: Fs, l: Layout, out: Path, z: Archive)
    ensures AfterInstall(fs, l, out, z) == Cleaned(l, Extracted(l, out, fs, z))
  {
    var a := AfterInstall(fs, l, out, z);
    var c := Cleaned(l, Extracted(l, out, fs, z));
    assert a.files == c.files;
  }

  /** With an installable layout and archive, the filesystem stages succeed and leave
      exactly AfterInstall. */
  lemma UnpackSucceeds(l: Layout, out: Path, fs: Fs, z: Archive)
    requires Installable(l, out, fs, z)
    ensures Unpack(l, out, fs, z) == InstallResult(Installed(l.artifact), AfterInstall(fs, l, out, z))
  {
    var extracted := Extracted(l, out, fs, z);
    assert ExtractAll(Fs(fs.files + {l.archive}, fs.dirs), out, z) == Some(extracted);
    FinishSucceeds(l, extracted);
    AfterInstallIsCleaned(fs, l, out, z);
  }

  /** The state a successful install leaves is installable again with the same archive. */
  lemma InstallableAgain(l: Layout, out: Path, fs: Fs, z: Archive)
    requires Installable(l, out, fs, z)
    ensures Installable(l, out, AfterInstall(fs, l, out, z), z)
  {
    var once := AfterInstall(fs, l, out, z);
    var archiveDir := l.archive[..|l.archive| - 1];
    var artifactDir := l.artifact[..|l.artifact| - 1];
    assert !Under(archiveDir, l.dir);
    assert !Under(artifactDir, l.dir);
    assert archiveDir in once.dirs && artifactDir in once.dirs;
    assert once.files <= fs.files + MemberFiles(out, z) + {l.artifact};
    assert once.dirs <= fs.dirs + MemberDirs(out, z);
    assert Extractable(Fs(once.files + {l.archive}, once.dirs), out, z);
  }

  /** Cleaning up the state a successful install leaves, with the same archive, gives that
      state back. */
  lemma AfterInstallStable(l: Layout, out: Path, fs: Fs, z: Archive)
    requires !Under(l.artifact, l.dir) && l.artifact != l.archive
    ensures AfterInstall(AfterInstall(fs, l, out, z), l, out, z) == AfterInstall(fs, l, out, z)
  {
    var once := AfterInstall(fs, l, out, z);
    var twice := AfterInstall(once, l, out, z);
    assert twice.files == once.files;
    assert twice.dirs == once.dirs;
  }

  /** A second install with the same answers from the network, on the state the first one
      left, succeeds again and changes nothing: the same zip-app is written over, and the
      same leftovers are removed again. */
  lemma UnpackIdempotent(l: Layout, out: Path, fs: Fs, z: Archive)
    requires Installable(l, out, fs, z)
    ensures Installable(l, out, AfterInstall(fs, l, out, z), z)
    ensures Unpack(l, out, AfterInstall(fs, l, out, z), z) == Unpack(l, out, fs, z)
  {
    InstallableAgain(l, out, fs, z);
    UnpackSucceeds(l, out, fs, z);
    UnpackSucceeds(l, out, AfterInstall(fs, l, out, z), z);
    AfterInstallStable(l, out, fs, z);
  }

  /** A run whose network stages deliver an installable archive succeeds with exactly
      AfterInstall. */
  lemma InstallSucceeds(tag: string, out: Path, fs: Fs, remote: Remote)
    requires Fetch(ArchiveName(NormalizeVersion(tag)), remote).Right?
    requires Installable(LayoutFor(out, NormalizeVersion(tag)), out, fs,
                         Fetch(ArchiveName(NormalizeVersion(tag)), remote).right)
    ensures Install(tag, out, fs, remote)
         == InstallResult(Installed(ArtifactPath(out, NormalizeVersion(tag))),
                          AfterInstall(fs, LayoutFor(out, NormalizeVersion(tag)), out,
                                       Fetch(ArchiveName(NormalizeVersion(tag)), remote).right))
  {
    var version := NormalizeVersion(tag);
    UnpackSucceeds(LayoutFor(out, version), out, fs, Fetch(ArchiveName(version), remote).right);
  }

  /** Running a successful install again on its result, with the same answers from the
      network, gives the same result. */
  lemma InstallIdempotent(tag: string, out: Path, fs: Fs, remote: Remote)
    requires Fetch(ArchiveName(NormalizeVersion(tag)), remote).Right?
    requires Installable(LayoutFor(out, NormalizeVersion(tag)), out, fs,
                         Fetch(ArchiveName(NormalizeVersion(tag)), remote).right)
    ensures Install(tag, out, fs, remote).outcome.Installed?
    ensures Install(tag, out, Install(tag, out, fs, remote).fs, remote) == Install(tag, out, fs, remote)
  {
    var version := NormalizeVersion(tag);
    var l := LayoutFor(out, version);
    var z := Fetch(ArchiveName(version), remote).right;
    UnpackSucceeds(l, out, fs, z);
    UnpackIdempotent(l, out, fs, z);
  }

  /** A layout of three distinct entries `archive`, `dir` and `artifact` of `out` is
      installable when the output directory exists, neither the archive's nor the zip-app's
      path is a directory, the written archive extracts without a clash, and the archive
      holds `dir/fontmake`. */
  lemma FlatInstallable(out: Path, archive: string, dir: string, artifact: string, fs: Fs, z: Archive)
    requires archive != dir && artifact != dir && artifact != archive
    requires [dir, "fontmake"] in z.files
    requires out in fs.dirs
    requires out + [archive] !in fs.dirs
    requires Extractable(Fs(fs.files + {out + [archive]}, fs.dirs), out, z)
    requires out + [artifact] !in fs.dirs && out + [artifact] !in MemberDirs(out, z)
    ensures Installable(Layout(out + [archive], out + [dir], out + [artifact]), out, fs, z)
  {
    var l := Layout(out + [archive], out + [dir], out + [artifact]);
    var e: Entry := [dir, "fontmake"];
    assert l.Executable() == out + e;
    assert e[..1] in Ancestors(e);
    assert l.dir == out + e[..1];
    assert l.archive[..|l.archive| - 1] == out;
    assert l.artifact[..|l.artifact| - 1] == out;
    assert l.archive[|out|] != l.dir[|out|];
    assert l.artifact[|out|] != l.dir[|out|];
  }

  /** For a version without '/', an archive holding
      `fontmake-{version}-cp311-cp311-macosx_11_0_universal2/fontmake` is installable when
      the output directory exists, neither the archive's nor the zip-app's path is a
      directory, and the written archive extracts without a clash. */
  lemma PlainInstallable(out: Path, version: string, fs: Fs, z: Archive)
    requires '/' !in version
    requires [ExtractedName(version), "fontmake"] in z.files
    requires out in fs.dirs
    requires out + [ArchiveName(version)] !in fs.dirs
    requires Extractable(Fs(fs.files + {out + [ArchiveName(version)]}, fs.dirs), out, z)
    requires out + [ArtifactName(version)] !in fs.dirs
    requires out + [ArtifactName(version)] !in MemberDirs(out, z)
    ensures Installable(LayoutFor(out, version), out, fs, z)
  {
    PlainLayout(out, version);
    PlainVersionNames(out, version);
    FlatInstallable(out, ArchiveName(version), ExtractedName(version), ArtifactName(version), fs, z);
  }

  /** For a version without '/', the well-formed archive above installs at
      `out/fontmake-{version}.pyz` and leaves exactly AfterInstall. */
  lemma PlainVersionInstalls(tag: string, out: Path, fs: Fs, remote: Remote)
    requires '/' !in NormalizeVersion(tag)
    requires Fetch(ArchiveName(NormalizeVersion(tag)), remote).Right?
    requires [ExtractedName(NormalizeVersion(tag)), "fontmake"]
             in Fetch(ArchiveName(NormalizeVersion(tag)), remote).right.files
    requires out in fs.dirs
    requires out + [ArchiveName(NormalizeVersion(tag))] !in fs.dirs
    requires Extractable(Fs(fs.files + {out + [ArchiveName(NormalizeVersion(tag))]}, fs.dirs), out,
                         Fetch(ArchiveName(NormalizeVersion(tag)), remote).right)
    requires out + [ArtifactName(NormalizeVersion(tag))] !in fs.dirs
    requires out + [ArtifactName(NormalizeVersion(tag))]
             !in MemberDirs(out, Fetch(ArchiveName(NormalizeVersion(tag)), remote).right)
    ensures Install(tag, out, fs, remote).outcome == Installed(out + [ArtifactName(NormalizeVersion(tag))])
    ensures Install(tag, out, fs, remote).fs
         == AfterInstall(fs, LayoutFor(out, NormalizeVersion(tag)), out,
                         Fetch(ArchiveName(NormalizeVersion(tag)), remote).right)
  {
    var version := NormalizeVersion(tag);
    PlainInstallable(out, version, fs, Fetch(ArchiveName(version), remote).right);
    InstallSucceeds(tag, out, fs, remote);
    PlainLayout(out, version);
  }

  /** How `main()` ended: it returned a value (None when it fell off the end), or an error
      escaped it, since `main` catches nothing. */
  datatype MainEnd = Returned(value: Option<int>) | Raised

  /** How `main()` ended, the install it ran, and the filesystem afterwards. */
  datatype MainResult = MainResult(end: MainEnd, install: Option<InstallResult>, fs: Fs)

  /** `main()`: fetch the latest release's tag; without one, return 1 having touched nothing;
      otherwise install that release next to the script, in `here`. `remoteFor` gives the
      network's answers for a tag. */
  function InstallerMain(latest: ReleaseResponse, here: Path, fs: Fs, remoteFor: string -> Remote): (m: MainResult)
    ensures m.install.None? <==> latest.status != 200
    ensures m.install.None? ==> m.end == Returned(Some(1)) && m.fs == fs
    ensures m.end.Raised? <==> m.install.Some? && m.install.value.outcome.Escapes()
    ensures m.install.Some? && !m.install.value.outcome.Escapes() ==> m.end == Returned(None)
    ensures m.install.Some? ==> m.fs == m.install.value.fs
    ensures m.install.Some? ==>
              m.install.value == Install(latest.release.tagName, here, fs, remoteFor(latest.release.tagName))
  {
    match LatestReleaseTag(latest)
    case None => MainResult(Returned(Some(1)), None, fs)
    case Some(tag) =>
      var r := Install(tag, here, fs, remoteFor(tag));
      MainResult(if r.outcome.Escapes() then Raised else Returned(None), Some(r), r.fs)
  }

  /** When the latest release is "v3.7.0" and its asset delivers the expected directory with
      `fontmake` in it, `main()` leaves `fontmake-3.7.0.pyz` next to the script. */
  lemma MainInstallsLatest(latest: ReleaseResponse, here: Path, fs: Fs, remoteFor: string -> Remote)
    requires latest.status == 200 && latest.release.tagName == "v3.7.0"
    requires Fetch(ArchiveName("3.7.0"), remoteFor("v3.7.0")).Right?
    requires ["fontmake-3.7.0-cp311-cp311-macosx_11_0_universal2", "fontmake"]
             in Fetch(ArchiveName("3.7.0"), remoteFor("v3.7.0")).right.files
    requires here in fs.dirs
    requires here + ["fontmake-3.7.0-cp311-cp311-macosx_11_0_universal2.zip"] !in fs.dirs
    requires Extractable(Fs(fs.files + {here + ["fontmake-3.7.0-cp311-cp311-macosx_11_0_universal2.zip"]}, fs.dirs),
                         here, Fetch(ArchiveName("3.7.0"), remoteFor("v3.7.0")).right)
    requires here + ["fontmake-3.7.0.pyz"] !in fs.dirs
    requires here + ["fontmake-3.7.0.pyz"] !in MemberDirs(here, Fetch(ArchiveName("3.7.0"), remoteFor("v3.7.0")).right)
    ensures InstallerMain(latest, here, fs, remoteFor).end == Returned(None)
    ensures InstallerMain(latest, here, fs, remoteFor).install.value.outcome == Installed(here + ["fontmake-3.7.0.pyz"])
    ensures here + ["fontmake-3.7.0.pyz"] in InstallerMain(latest, here, fs, remoteFor).fs.files
  {
    TaggedReleaseNames();
    MainInstallsPlainVersion(latest, here, fs, remoteFor);
  }

  /** For a latest tag whose version has no '/', and the archive conditions of
      PlainVersionInstalls, `main()` returns normally with the zip-app installed. */
  lemma MainInstallsPlainVersion(latest: ReleaseResponse, here: Path, fs: Fs, remoteFor: string -> Remote)
    requires latest.status == 200
    requires '/' !in NormalizeVersion(latest.release.tagName)
    requires Fetch(ArchiveName(NormalizeVersion(latest.release.tagName)), remoteFor(latest.release.tagName)).Right?
    requires [ExtractedName(NormalizeVersion(latest.release.tagName)), "fontmake"]
             in Fetch(ArchiveName(NormalizeVersion(latest.release.tagName)), remoteFor(latest.release.tagName)).right.files
    requires here in fs.dirs
    requires here + [ArchiveName(NormalizeVersion(latest.release.tagName))] !in fs.dirs
    requires Extractable(Fs(fs.files + {here + [ArchiveName(NormalizeVersion(latest.release.tagName))]}, fs.dirs), here,
                         Fetch(ArchiveName(NormalizeVersion(latest.release.tagName)), remoteFor(latest.release.tagName)).right)
    requires here + [ArtifactName(NormalizeVersion(latest.release.tagName))] !in fs.dirs
    requires here + [ArtifactName(NormalizeVersion(latest.release.tagName))]
             !in MemberDirs(here, Fetch(ArchiveName(NormalizeVersion(latest.release.tagName)), remoteFor(latest.release.tagName)).right)
    ensures InstallerMain(latest, here, fs, remoteFor).end == Returned(None)
    ensures InstallerMain(latest, here, fs, remoteFor).install.value.outcome
         == Installed(here + [ArtifactName(NormalizeVersion(latest.release.tagName))])
    ensures here + [ArtifactName(NormalizeVersion(latest.release.tagName))] in InstallerMain(latest, here, fs, remoteFor).fs.files
  {
    var tag := latest.release.tagName;
    PlainVersionInstalls(tag, here, fs, remoteFor(tag));
    MainAfterInstall(latest, here, fs, remoteFor);
  }

  /** `main()` ends with the install of the latest tag, and returns normally after a stop
      that does not escape. */
  lemma MainAfterInstall(latest: ReleaseResponse, here: Path, fs: Fs, remoteFor: string -> Remote)
    requires latest.status == 200
    ensures InstallerMain(latest, here, fs, remoteFor).install
         == Some(Install(latest.release.tagName, here, fs, remoteFor(latest.release.tagName)))
    ensures InstallerMain(latest, here, fs, remoteFor).fs
         == Install(latest.release.tagName, here, fs, remoteFor(latest.release.tagName)).fs
    ensures !Install(latest.release.tagName, here, fs, remoteFor(latest.release.tagName)).outcome.Escapes()
            ==> InstallerMain(latest, here, fs, remoteFor).end == Returned(None)
  {
  }

  /** When the latest release's asset URL gets no answer to its HEAD request, the
      connection error escapes `main` and nothing has been written. */
  lemma MainRaisesWhenAssetUnreachable(latest: ReleaseResponse, here: Path, fs: Fs, remoteFor: string -> Remote,
                                       url: string)
    requires latest.status == 200
    requires AssetUrl(ArchiveName(NormalizeVersion(latest.release.tagName)), remoteFor(latest.release.tagName)) == Some(url)
    requires remoteFor(latest.release.tagName).fuel > 0
    requires remoteFor(latest.release.tagName).net(url).None?
    ensures InstallerMain(latest, here, fs, remoteFor).end == Raised
    ensures InstallerMain(latest, here, fs, remoteFor).install.value.outcome == RedirectFailed(Unreachable(url))
    ensures InstallerMain(latest, here, fs, remoteFor).fs == fs
  {
  }
}

=== FILE: logscan.dfy ===
/** The exporter's search of fontmake's captured log for the files it saved:
    `re.findall(r"^INFO:fontmake.font_project:Saving (.*)$", text, flags=re.M)`, and the
    choice of the last path found. Two definitions are given and proved equal: one that
    walks the text the way the regular-expression engine does, and one that splits the text
    into lines and matches each line on its own. */
module LogScan {
  import opened Common
  import opened Text

  /** The pattern before the capture group. Its '.' is a wildcard, every other character is
      literal. */
  const SavingPattern: string := "INFO:fontmake.font_project:Saving "

  /** A pattern character against a text character: '.' matches anything but a newline. */
  predicate CharMatches(p: char, c: char)
  {
    if p == '.' then c != '\n' else c == p
  }

  /** `s` begins with text the pattern before the capture group matches. */
  predicate PrefixMatches(s: string)
  {
    |s| >= |SavingPattern| && forall i :: 0 <= i < |SavingPattern| ==> CharMatches(SavingPattern[i], s[i])
  }

  /** The regular-expression walk. `atLineStart` says whether `^` can match at the start of
      `s` (start of the text or just after a newline). Where the pattern matches, `(.*)`
      takes everything up to the next newline, `$` matches there, and the scan resumes at
      that newline; elsewhere the scan moves one character on. */
  function Scan(s: string, atLineStart: bool): (found: seq<string>)
    ensures forall i :: 0 <= i < |found| ==> '\n' !in found[i]
    decreases |s|
  {
    if |s| == 0 then []
    else if atLineStart && PrefixMatches(s) then
      var rest := s[|SavingPattern|..];
      var k := Find(rest, {'\n'});
      [rest[..k]] + Scan(rest[k..], false)
    else Scan(s[1..], s[0] == '\n')
  }

  /** The paths `re.findall` returns for the whole captured text: those of its lines that
      match, in order. */
  function FindAllSaved(text: string): (paths: seq<string>)
    ensures paths == Collect(Split(text, '\n'))
    ensures forall i :: 0 <= i < |paths| ==> '\n' !in paths[i]
  {
    JoinSplit(text, '\n');
    ScanJoined(Split(text, '\n'));
    Scan(text, true)
  }

  /** One line, without its newline, matched on its own: the rest of the line after the
      pattern, or None. */
  function LineMatch(line: string): (r: Option<string>)
    ensures r.Some? <==> PrefixMatches(line)
    ensures r.Some? ==> |line| == |SavingPattern| + |r.value|
    ensures r.Some? ==> forall j :: 0 <= j < |r.value| ==> r.value[j] == line[|SavingPattern| + j]
  {
    if PrefixMatches(line) then Some(line[|SavingPattern|..]) else None
  }

  /** An optional match as a sequence of zero or one path. */
  function Matched(m: Option<string>): seq<string>
  {
    match m
    case None => []
    case Some(p) => [p]
  }

  /** The matches of a sequence of lines, in order. */
  function Collect(lines: seq<string>): (paths: seq<string>)
    ensures |paths| <= |lines|
    ensures paths == [] <==> forall i :: 0 <= i < |lines| ==> LineMatch(lines[i]).None?
    ensures forall i :: 0 <= i < |lines| && LineMatch(lines[i]).Some? ==> LineMatch(lines[i]).value in paths
  {
    if |lines| == 0 then []
    else
      var rest := Collect(lines[1..]);
      assert forall i :: 1 <= i < |lines| ==> lines[i] == lines[1..][i - 1];
      Matched(LineMatch(lines[0])) + rest
  }

  /** Every collected path is the match of one of the lines. */
  lemma {:induction false} CollectedFromLines(lines: seq<string>, j: nat)
    requires j < |Collect(lines)|
    ensures exists i :: 0 <= i < |lines| && LineMatch(lines[i]) == Some(Collect(lines)[j])
    decreases |lines|
  {
    var head := Matched(LineMatch(lines[0]));
    if j < |head| {
      assert LineMatch(lines[0]) == Some(Collect(lines)[j]);
    } else {
      CollectedFromLines(lines[1..], j - |head|);
      var i :| 0 <= i < |lines[1..]| && LineMatch(lines[1..][i]) == Some(Collect(lines[1..])[j - |head|]);
      assert lines[1..][i] == lines[i + 1];
    }
  }

  /** The paths found in a text, line by line: split on '\n' and match each line. */
  function ExtractPaths(text: string): seq<string>
  {
    Collect(Split(text, '\n'))
  }

  /** The file to show in the file browser: the last path found, or none when nothing was found. */
  function RevealTarget(paths: seq<string>): (r: Option<string>)
    ensures r.None? <==> |paths| == 0
    ensures r.Some? ==> r.value == paths[|paths| - 1] && r.value in paths
  {
    if |paths| == 0 then None else Some(paths[|paths| - 1])
  }

  /** Outside a line start, the scan passes over newline-free text without finding
      anything. */
  lemma {:induction false} SkipToNewline(line: string, tail: string)
    requires '\n' !in line
    ensures Scan(line + tail, false) == Scan(tail, false)
    decreases |line|
  {
    if |line| > 0 {
      assert (line + tail)[0] == line[0] && line[0] != '\n';
      assert (line + tail)[1..] == line[1..] + tail;
      assert '\n' !in line[1..];
      SkipToNewline(line[1..], tail);
      assert Scan(line + tail, false) == Scan((line + tail)[1..], false);
    } else {
      assert line + tail == tail;
    }
  }

  /** Text the pattern matches holds no newline. */
  lemma NoNewlineInPrefix(s: string)
    requires PrefixMatches(s)
    ensures forall i :: 0 <= i < |SavingPattern| ==> s[i] != '\n'
  {
    assert '\n' !in SavingPattern;
  }

  /** A match that would run past the end of a line fails: the pattern holds no newline
      and its wildcard does not match one. */
  lemma PrefixWithinLine(line: string, tail: string)
    requires '\n' !in line
    requires |tail| > 0 && tail[0] == '\n'
    ensures PrefixMatches(line + tail) <==> PrefixMatches(line)
  {
    var s := line + tail;
    assert s[|line|] == '\n';
    if PrefixMatches(s) {
      NoNewlineInPrefix(s);
      assert |line| >= |SavingPattern|;
      assert forall i :: 0 <= i < |SavingPattern| ==> s[i] == line[i];
    }
    if PrefixMatches(line) {
      assert forall i :: 0 <= i < |SavingPattern| ==> s[i] == line[i];
    }
  }

  /** Where the pattern matches at a line start, `(.*)` captures the rest of the line and
      the scan resumes at its end. */
  lemma ScanMatchedLine(line: string, tail: string)
    requires '\n' !in line
    requires |tail| == 0 || tail[0] == '\n'
    requires PrefixMatches(line + tail)
    ensures |line| >= |SavingPattern|
    ensures Scan(line + tail, true) == [line[|SavingPattern|..]] + Scan(tail, false)
  {
    var s := line + tail;
    if |tail| > 0 {
      PrefixWithinLine(line, tail);
    } else {
      assert s == line;
    }
    var after := line[|SavingPattern|..];
    var rest := s[|SavingPattern|..];
    assert rest == after + tail;
    FindConcat(after, tail, {'\n'});
    assert Find(after, {'\n'}) == |after|;
    if |tail| > 0 {
      assert Find(tail, {'\n'}) == 0;
    }
    assert rest[..|after|] == after;
    assert rest[|after|..] == tail;
  }

  /** Where the pattern does not match at a line start, the scan finds nothing before the
      newline that ends the line. */
  lemma ScanUnmatchedLine(line: string, tail: string)
    requires '\n' !in line
    requires |tail| == 0 || tail[0] == '\n'
    requires |line + tail| > 0 && !PrefixMatches(line + tail)
    ensures Scan(line + tail, true) == Scan(tail, false)
  {
    var s := line + tail;
    if |line| == 0 {
      assert s == tail;
    } else {
      assert s[1..] == line[1..] + tail;
      assert s[0] == line[0];
      SkipToNewline(line[1..], tail);
      SkipToNewline(line, tail);
    }
  }

  /** At a line start, the scan finds what matching that line on its own finds, then
      carries on from the newline that ends it. */
  lemma ScanLine(line: string, tail: string)
    requires '\n' !in line
    requires |tail| == 0 || tail[0] == '\n'
    ensures Scan(line + tail, true) == Matched(LineMatch(line)) + Scan(tail, false)
  {
    var s := line + tail;
    if |tail| > 0 {
      PrefixWithinLine(line, tail);
    } else {
      assert s == line;
    }
    if |s| == 0 {
      assert line == [] && tail == [];
    } else if PrefixMatches(s) {
      ScanMatchedLine(line, tail);
    } else {
      ScanUnmatchedLine(line, tail);
    }
  }

  /** A newline ends the scan's current line: after it, `^` can match again. */
  lemma ScanAfterNewline(tail: string)
    requires |tail| > 0 && tail[0] == '\n'
    ensures Scan(tail, false) == Scan(tail[1..], true)
  {
  }

  /** The line-by-line matches of a first line and the lines after it. */
  lemma CollectCons(line: string, lines: seq<string>)
    ensures Collect([line] + lines) == Matched(LineMatch(line)) + Collect(lines)
  {
    assert ([line] + lines)[1..] == lines;
  }

  /** Newline-free lines joined by '\n' are scanned line by line: the walk finds what
      matching each line on its own finds. */
  lemma {:induction false} ScanJoined(lines: seq<string>)
    requires |lines| >= 1
    requires forall i :: 0 <= i < |lines| ==> '\n' !in lines[i]
    ensures Scan(Join(lines, '\n'), true) == Collect(lines)
    decreases |lines|
  {
    var line := lines[0];
    var rest := lines[1..];
    assert lines == [line] + rest;
    CollectCons(line, rest);
    if |lines| == 1 {
      assert Join(lines, '\n') == line + [];
      ScanLine(line, []);
    } else {
      ScanJoinedCons(line, rest);
      ScanJoined(rest);
    }
  }

  /** The scan of a first line joined to more lines: that line's match, then the scan of
      the rest from a line start. */
  lemma ScanJoinedCons(line: string, rest: seq<string>)
    requires |rest| >= 1 && '\n' !in line
    ensures Scan(Join([line] + rest, '\n'), true) == Matched(LineMatch(line)) + Scan(Join(rest, '\n'), true)
  {
    JoinCons(line, rest, '\n');
    ScanLineThenNewline(line, Join(rest, '\n'));
  }

  /** A line, a newline and more text: the line's match, then the scan of the text from a
      line start. */
  lemma ScanLineThenNewline(line: string, more: string)
    requires '\n' !in line
    ensures Scan(line + ['\n'] + more, true) == Matched(LineMatch(line)) + Scan(more, true)
  {
    var tail := ['\n'] + more;
    assert line + ['\n'] + more == line + tail;
    ScanLine(line, tail);
    ScanAfterNewline(tail);
    assert tail[1..] == more;
  }

  /** The regular-expression walk and the line-by-line definition find the same paths in
      the same order, for every text. */
  lemma ScanIsLineByLine(text: string)
    ensures FindAllSaved(text) == ExtractPaths(text)
  {
    var lines := Split(text, '\n');
    JoinSplit(text, '\n');
    ScanJoined(lines);
  }

  /** A log line reporting that `path` was saved. */
  function SavedLine(path: string): string
  {
    SavingPattern + path
  }

  /** The log lines reporting each path. */
  function SavedLines(paths: seq<string>): (lines: seq<string>)
    ensures |lines| == |paths|
  {
    if |paths| == 0 then [] else [SavedLine(paths[0])] + SavedLines(paths[1..])
  }

  /** A saved line gives back its path. */
  lemma SavedLineMatches(path: string)
    ensures LineMatch(SavedLine(path)) == Some(path)
  {
    var line := SavedLine(path);
    assert forall i :: 0 <= i < |SavingPattern| ==> line[i] == SavingPattern[i];
    assert line[|SavingPattern|..] == path;
  }

  /** Matching the lines that report paths gives back exactly those paths, in order. */
  lemma {:induction false} CollectSavedLines(paths: seq<string>)
    ensures Collect(SavedLines(paths)) == paths
  {
    if |paths| > 0 {
      SavedLineMatches(paths[0]);
      CollectSavedLines(paths[1..]);
      assert SavedLines(paths)[1..] == SavedLines(paths[1..]);
    }
  }

  /** Writing the lines that report newline-free paths, joined by '\n', and extracting the
      paths from that text gives back the paths, in order. */
  lemma SavedLogRoundTrip(paths: seq<string>)
    requires forall i :: 0 <= i < |paths| ==> '\n' !in paths[i]
    ensures ExtractPaths(Join(SavedLines(paths), '\n')) == paths
  {
    var lines := SavedLines(paths);
    if |paths| == 0 {
      assert Split("", '\n') == [""];
      assert LineMatch("").None?;
    } else {
      SavedLinesNewlineFree(paths);
      SplitJoin(lines, '\n');
      CollectSavedLines(paths);
    }
  }

  /** The i-th saved line reports the i-th path. */
  lemma {:induction false} SavedLinesAre(paths: seq<string>)
    ensures forall i :: 0 <= i < |paths| ==> SavedLines(paths)[i] == SavingPattern + paths[i]
  {
    if |paths| > 0 {
      SavedLinesAre(paths[1..]);
    }
  }

  /** Lines reporting newline-free paths hold no newline. */
  lemma SavedLinesNewlineFree(paths: seq<string>)
    requires forall i :: 0 <= i < |paths| ==> '\n' !in paths[i]
    ensures forall i :: 0 <= i < |paths| ==> '\n' !in SavedLines(paths)[i]
  {
    SavedLinesAre(paths);
    assert '\n' !in SavingPattern;
  }

  /** A single newline-terminated line is the line and an empty last piece. */
  lemma SplitTerminatedLine(line: string)
    requires '\n' !in line
    ensures Split(line + "\n", '\n') == [line, ""]
  {
    assert line + "\n" == line + ['\n'] + "";
    SplitCons(line, "", '\n');
    assert Split("", '\n') == [""];
  }

  /** A carriage return before the newline stays in the path: `(.*)` stops only at '\n'. */
  lemma CarriageReturnKept(path: string)
    requires '\n' !in path
    ensures ExtractPaths(SavingPattern + path + "\r\n") == [path + "\r"]
  {
    var line := SavedLine(path + "\r");
    assert SavingPattern + path + "\r\n" == line + "\n";
    assert '\n' !in SavingPattern;
    assert '\n' !in line;
    SplitTerminatedLine(line);
    SavedLineMatches(path + "\r");
    CollectCons(line, [""]);
    CollectCons("", []);
    assert LineMatch("").None?;
    assert [line] + [""] == [line, ""];
  }

  /** The '.' between "fontmake" and "font_project" is a wildcard: any other character in
      its place, except a newline, still matches. */
  lemma WildcardMatches(c: char, path: string)
    requires c != '\n'
    ensures LineMatch(SavingPattern[..13] + [c] + SavingPattern[14..] + path) == Some(path)
  {
    var line := SavingPattern[..13] + [c] + SavingPattern[14..] + path;
    assert SavingPattern[13] == '.';
    assert |line| == |SavingPattern| + |path|;
    assert forall i :: 0 <= i < |SavingPattern| && i != 13 ==> line[i] == SavingPattern[i];
    assert line[13] == c;
    assert PrefixMatches(line);
    assert line[|SavingPattern|..] == path;
  }

  /** Matching the lines of a concatenation finds the first part's paths, then the
      second's. */
  lemma {:induction false} CollectAppend(a: seq<string>, b: seq<string>)
    ensures Collect(a + b) == Collect(a) + Collect(b)
  {
    if |a| > 0 {
      assert (a + b)[0] == a[0];
      assert (a + b)[1..] == a[1..] + b;
      CollectAppend(a[1..], b);
    } else {
      assert a + b == b;
    }
  }
}

=== FILE: naming.dfy ===
/** How the installer names things: the version taken from a release tag, the platform
    archive, the directory the archive unpacks to, and the installed zip-app. */
module Naming {
  import opened Paths

  /** The fixed part of the platform archive name after the version. */
  const ArchiveTail := "-cp311-cp311-macosx_11_0_universal2.zip"

  /** The version in a tag: one leading lowercase 'v' is dropped, nothing else changes. */
  function NormalizeVersion(tag: string): (version: string)
    ensures tag == version || tag == "v" + version
    ensures version == tag <==> !(|tag| > 0 && tag[0] == 'v')
  {
    if |tag| > 0 && tag[0] == 'v' then tag[1..] else tag
  }

  /** Exactly one 'v' is stripped: "v" + x normalises to x whatever x is, so "vv1" gives "v1". */
  lemma StripsExactlyOneV(x: string)
    ensures NormalizeVersion("v" + x) == x
    ensures NormalizeVersion("vv1") == "v1"
    ensures NormalizeVersion("v3.7.0") == "3.7.0" && NormalizeVersion("3.7.0") == "3.7.0"
  {
  }

  /** The release asset to download for a version: the name of the directory it unpacks
      to, followed by ".zip". */
  function ArchiveName(version: string): (name: string)
    ensures name == ExtractedName(version) + ".zip"
    ensures '/' in name <==> '/' in version
  {
    assert '/' !in "fontmake-" && '/' !in ArchiveTail;
    "fontmake-" + version + ArchiveTail
  }

  /** The name the installed zip-app gets. */
  function ArtifactName(version: string): (name: string)
    ensures '/' in name <==> '/' in version
    ensures |name| > |version|
  {
    assert '/' !in "fontmake-" && '/' !in ".pyz";
    "fontmake-" + version + ".pyz"
  }

  /** Where the archive is downloaded to: `output_dir / zip_filename`, an entry of the
      output directory when the version has no '/'. */
  function ArchivePath(outputDir: Path, version: string): (p: Path)
    ensures '/' !in version ==> p == outputDir + [ArchiveName(version)]
  {
    JoinSingle(outputDir, ArchiveName(version));
    JoinPath(outputDir, ArchiveName(version))
  }

  /** The directory the archive is expected to unpack to: `output_dir / zip_path.stem`,
      the entry named after the archive without ".zip" when the version has no '/'. */
  function ExtractedDir(outputDir: Path, version: string): (d: Path)
    ensures '/' !in version ==> d == outputDir + [ExtractedName(version)]
  {
    var zip := ArchivePath(outputDir, version);
    if '/' in version then JoinPath(outputDir, Stem(Name(zip)))
    else
      var base := ExtractedName(version);
      assert Name(zip) == base + "." + "zip";
      StemOfSuffixed(base, "zip");
      JoinSingle(outputDir, base);
      JoinPath(outputDir, Stem(Name(zip)))
  }

  /** Where the zip-app ends up: `output_dir / f"fontmake-{version}.pyz"`, an entry of the
      output directory when the version has no '/'. */
  function ArtifactPath(outputDir: Path, version: string): (p: Path)
    ensures '/' !in version ==> p == outputDir + [ArtifactName(version)]
  {
    JoinSingle(outputDir, ArtifactName(version));
    JoinPath(outputDir, ArtifactName(version))
  }

  /** The archive name without ".zip", which is what the archive is expected to unpack to.
      Like the other names, it starts with "fontmake-" and the version. */
  function ExtractedName(version: string): (name: string)
    ensures '/' in name <==> '/' in version
    ensures "fontmake-" + version <= name
  {
    assert '/' !in "fontmake-" && '/' !in "-cp311-cp311-macosx_11_0_universal2";
    "fontmake-" + version + "-cp311-cp311-macosx_11_0_universal2"
  }

  /** A version without '/' gives names without '/'. */
  lemma NamesAreSlashFree(version: string)
    requires '/' !in version
    ensures '/' !in ArchiveName(version) && '/' !in ArtifactName(version)
    ensures '/' !in ExtractedName(version)
    ensures ArchiveName(version) == ExtractedName(version) + "." + "zip"
    ensures ArchiveName(version) == ExtractedName(version) + ".zip"
  {
    assert '/' !in "fontmake-" && '/' !in ArchiveTail && '/' !in ".pyz";
    assert '/' !in "-cp311-cp311-macosx_11_0_universal2";
  }

  /** A slash-free name that is neither empty nor "." is joined as one component. */
  lemma JoinSingle(outputDir: Path, name: string)
    ensures name != "" && name != "." && '/' !in name ==> JoinPath(outputDir, name) == outputDir + [name]
  {
    if name != "" && name != "." && '/' !in name {
      SingleComponent(name);
    }
  }

  /** The three names differ in their last character, so they are distinct. */
  lemma NamesDistinct(version: string)
    ensures ArchiveName(version) != ArtifactName(version)
    ensures ExtractedName(version) != ArchiveName(version)
    ensures ExtractedName(version) != ArtifactName(version)
  {
    var zip := ArchiveName(version);
    var base := ExtractedName(version);
    var art := ArtifactName(version);
    assert zip[|zip| - 1] == 'p' && art[|art| - 1] == 'z' && base[|base| - 1] == '2';
  }

  /** For a version without '/', each of the three paths is one component inside the output
      directory, the extracted directory is the archive name without ".zip", and the three
      names are distinct, so none of the paths lies inside another. */
  lemma PlainVersionNames(outputDir: Path, version: string)
    requires '/' !in version
    ensures ArchivePath(outputDir, version) == outputDir + [ArchiveName(version)]
    ensures ExtractedDir(outputDir, version) == outputDir + [ExtractedName(version)]
    ensures ExtractedName(version) + ".zip" == ArchiveName(version)
    ensures ArtifactPath(outputDir, version) == outputDir + [ArtifactName(version)]
    ensures ArchiveName(version) != ArtifactName(version)
    ensures ExtractedName(version) != ArchiveName(version)
    ensures ExtractedName(version) != ArtifactName(version)
  {
    PlainFilePaths(outputDir, version);
    PlainExtractedDir(outputDir, version);
    NamesAreSlashFree(version);
    NamesDistinct(version);
  }

  /** For a version without '/', the archive and the zip-app are entries of the output
      directory. */
  lemma PlainFilePaths(outputDir: Path, version: string)
    requires '/' !in version
    ensures ArchivePath(outputDir, version) == outputDir + [ArchiveName(version)]
    ensures ArtifactPath(outputDir, version) == outputDir + [ArtifactName(version)]
  {
    NamesAreSlashFree(version);
    var zip := ArchiveName(version);
    var art := ArtifactName(version);
    assert |zip| > 1 && |art| > 1;
    JoinSingle(outputDir, zip);
    JoinSingle(outputDir, art);
  }

  /** For a version without '/', the extracted directory is the entry named after the
      archive without ".zip". */
  lemma PlainExtractedDir(outputDir: Path, version: string)
    requires '/' !in version
    ensures ExtractedDir(outputDir, version) == outputDir + [ExtractedName(version)]
  {
    PlainFilePaths(outputDir, version);
    NamesAreSlashFree(version);
    var zip := ArchiveName(version);
    var base := ExtractedName(version);
    assert Name(outputDir + [zip]) == zip;
    assert |base| > 1;
    StemOfSuffixed(base, "zip");
    JoinSingle(outputDir, base);
  }

  /** The release tag "v3.7.0" names the asset
      `fontmake-3.7.0-cp311-cp311-macosx_11_0_universal2.zip` and the zip-app
      `fontmake-3.7.0.pyz`. */
  lemma TaggedReleaseNames()
    ensures ArchiveName(NormalizeVersion("v3.7.0")) == "fontmake-3.7.0-cp311-cp311-macosx_11_0_universal2.zip"
    ensures ExtractedName(NormalizeVersion("v3.7.0")) == "fontmake-3.7.0-cp311-cp311-macosx_11_0_universal2"
    ensures ArtifactName(NormalizeVersion("v3.7.0")) == "fontmake-3.7.0.pyz"
  {
    StripsExactlyOneV("3.7.0");
    LiteralVersionPrefix();
    LiteralArchiveName();
    LiteralExtractedName();
  }

  /** The common start of the names for 3.7.0, spelt out. */
  lemma LiteralVersionPrefix()
    ensures "fontmake-" + "3.7.0" == "fontmake-3.7.0"
  {
  }

  /** The archive name for 3.7.0, spelt out. */
  lemma LiteralArchiveName()
    ensures "fontmake-3.7.0" + "-cp311-cp311-macosx_11_0_universal2.zip"
         == "fontmake-3.7.0-cp311-cp311-macosx_11_0_universal2.zip"
  {
  }

  /** The extracted directory's name for 3.7.0, spelt out. */
  lemma LiteralExtractedName()
    ensures "fontmake-3.7.0" + "-cp311-cp311-macosx_11_0_universal2"
         == "fontmake-3.7.0-cp311-cp311-macosx_11_0_universal2"
  {
  }
}

=== FILE: paths.dfy ===
/** The slice of `pathlib.PurePosixPath` the scripts rely on: parsing a string into
    components, joining with `/`, and the `name` and `stem` properties. */
module Paths {
  import opened Text

  /** A path as its sequence of components; an absolute path starts with the component "/". */
  type Path = seq<string>

  /** The pieces pathlib keeps when it parses a string: empty pieces and "." are dropped. */
  function KeepParts(parts: seq<string>): (r: seq<string>)
    ensures |r| <= |parts|
    ensures forall i :: 0 <= i < |r| ==> r[i] in parts && r[i] != "" && r[i] != "."
    ensures forall i :: 0 <= i < |parts| && parts[i] != "" && parts[i] != "." ==> parts[i] in r
  {
    if |parts| == 0 then []
    else
      var rest := KeepParts(parts[1..]);
      assert forall i :: 1 <= i < |parts| ==> parts[i] == parts[1..][i - 1];
      if parts[0] == "" || parts[0] == "." then rest else [parts[0]] + rest
  }

  /** `Path(s)` as components: a leading '/' becomes the root component "/". */
  function Components(s: string): (p: Path)
    ensures forall i :: 0 <= i < |p| ==> p[i] != "" && p[i] != "."
    ensures forall i :: 1 <= i < |p| ==> '/' !in p[i]
    ensures (|p| > 0 && p[0] == "/") <==> (|s| > 0 && s[0] == '/')
  {
    assert "/"[0] == '/';
    (if |s| > 0 && s[0] == '/' then ["/"] else []) + KeepParts(Split(s, '/'))
  }

  /** A non-empty string without '/' that is not "." is a single component. */
  lemma SingleComponent(s: string)
    requires s != "" && s != "." && '/' !in s
    ensures Components(s) == [s]
  {
    assert Find(s, {'/'}) == |s|;
    assert Split(s, '/') == [s];
  }

  /** `dir / rel`: a relative `rel` is appended to `dir`, an absolute one replaces it. */
  function JoinPath(dir: Path, rel: string): (p: Path)
    ensures |rel| > 0 && rel[0] == '/' ==> p == Components(rel)
    ensures !(|rel| > 0 && rel[0] == '/') ==> dir <= p && p[|dir|..] == Components(rel)
  {
    if |rel| > 0 && rel[0] == '/' then Components(rel) else dir + Components(rel)
  }

  /** pathlib's `name`: the last component, or "" for the root or the empty path. */
  function Name(p: Path): string
  {
    if |p| == 0 || p[|p| - 1] == "/" then "" else p[|p| - 1]
  }

  /** `dir / a/b` for two plain names appends both, as pathlib splits the operand at '/'. */
  lemma JoinTwoNames(dir: Path, a: string, b: string)
    requires a != "" && a != "." && '/' !in a
    requires b != "" && b != "." && '/' !in b
    ensures JoinPath(dir, a + "/" + b) == dir + [a, b]
  {
    assert Join([a, b], '/') == a + "/" + b;
    SplitJoin([a, b], '/');
    assert KeepParts([a, b][1..]) == [b];
    assert a[0] != '/';
  }

  /** A name pathlib keeps as one component: non-empty, not ".", and without '/'. */
  predicate PlainName(s: string)
  {
    s != "" && s != "." && '/' !in s
  }

  /** Parsing keeps every piece that is neither empty nor ".". */
  lemma {:induction false} KeepPlainParts(ps: seq<string>)
    requires forall i :: 0 <= i < |ps| ==> PlainName(ps[i])
    ensures KeepParts(ps) == ps
    decreases |ps|
  {
    if |ps| > 0 {
      KeepPlainParts(ps[1..]);
      assert [ps[0]] + ps[1..] == ps;
    }
  }

  /** Plain names joined by '/' parse back into exactly those names, in order, and
      `dir / "a/b/…"` appends them all. */
  lemma ComponentsOfJoin(dir: Path, ps: seq<string>)
    requires |ps| >= 1
    requires forall i :: 0 <= i < |ps| ==> PlainName(ps[i])
    ensures Components(Join(ps, '/')) == ps
    ensures JoinPath(dir, Join(ps, '/')) == dir + ps
  {
    var s := Join(ps, '/');
    assert Split(s, '/') == ps by {
      SplitJoin(ps, '/');
    }
    assert KeepParts(ps) == ps by {
      KeepPlainParts(ps);
    }
    assert s[0] != '/' by {
      JoinStartsWithFirst(ps, '/');
    }
  }

  /** A join starts with its first part. */
  lemma JoinStartsWithFirst(ps: seq<string>, sep: char)
    requires |ps| >= 1
    ensures ps[0] <= Join(ps, sep)
  {
  }

  /** The name of `dir / name` is `name` for a plain name. */
  lemma NameOfJoin(dir: Path, name: string)
    requires name != "" && name != "." && '/' !in name
    ensures Name(JoinPath(dir, name)) == name
  {
    SingleComponent(name);
    assert name != "/";
  }

  /** pathlib's `stem`: the name without its last suffix; a suffix needs a '.' that is
      neither the first nor the last character of the name. */
  function Stem(name: string): (r: string)
    ensures r <= name
    ensures r == name || (0 < |r| < |name| - 1 && name[|r|] == '.' && '.' !in name[|r| + 1..])
  {
    var i := LastIndexOf(name, '.');
    if 0 < i < |name| - 1 then name[..i] else name
  }

  /** The stem of `base.ext` is `base` when `ext` is a non-empty dot-free extension. */
  lemma StemOfSuffixed(base: string, ext: string)
    requires |base| > 0 && |ext| > 0 && '.' !in ext
    ensures Stem(base + "." + ext) == base
  {
    var name := base + "." + ext;
    var i := LastIndexOf(name, '.');
    assert name[|base|] == '.';
    assert name[|base| + 1..] == ext;
    assert name[..|base|] == base;
  }
}

=== FILE: redirect.dfy ===
/** Following HTTP redirects with HEAD requests until an answer is not a redirect. The
    network is abstract: whatever answer (if any) a HEAD request for a URL gets. A real
    server answers by the request a URL turns into; `OnServer` is that network. */
module Redirect {
  import opened Common
  import opened Urls

  /** The parts of a HEAD answer that matter: the status and the Location header. */
  datatype HeadResponse = HeadResponse(status: int, location: Option<string>)

  /** The answer a HEAD request for a URL gets; None is no answer (a connection error). */
  type Network = string -> Option<HeadResponse>

  /** A server: the answer to each request it knows; other requests get no answer. */
  type Server = map<Endpoint, HeadResponse>

  /** The network a server makes: a URL is answered by its netloc and path alone, so URLs
      that differ only in query or fragment get the same answer. */
  function OnServer(server: Server): (net: Network)
    ensures forall u :: net(u).Some? <==> Request(u) in server
    ensures forall u, v :: Request(u) == Request(v) ==> net(u) == net(v)
  {
    url => if Request(url) in server then Some(server[Request(url)]) else None
  }

  /** How following a URL ends. */
  datatype Resolution =
    | Resolved(url: string)         // an answer that is not a redirect: this URL is final
    | Unreachable(url: string)      // no answer for this URL; the connection error escapes
    | MissingLocation(url: string)  // a redirect without Location; parsing None fails
    | HopLimit(url: string)         // the fuel ran out before a final answer

  /** The statuses that are followed. 308 is not among them. */
  predicate IsRedirectStatus(status: int)
  {
    status in {301, 302, 303, 307}
  }

  /** `url` gets an answer whose status is not followed. */
  predicate IsFinal(net: Network, url: string)
  {
    net(url).Some? && !IsRedirectStatus(net(url).value.status)
  }

  /** `url` gets a followed redirect whose Location is `next`. */
  predicate RedirectsTo(net: Network, url: string, next: string)
  {
    && net(url).Some?
    && IsRedirectStatus(net(url).value.status)
    && net(url).value.location == Some(next)
  }

  /** `get_redirected_url` with at most `fuel` HEAD requests. */
  function Follow(net: Network, url: string, fuel: nat): (r: Resolution)
    ensures r.Resolved? ==> IsFinal(net, r.url)
    ensures fuel > 0 && IsFinal(net, url) ==> r == Resolved(url)
    ensures fuel > 0 && net(url).None? ==> r == Unreachable(url)
    ensures (fuel > 0 && net(url).Some? && IsRedirectStatus(net(url).value.status) && net(url).value.location.None?)
            ==> r == MissingLocation(url)
    ensures fuel == 0 ==> r.HopLimit?
    decreases fuel
  {
    if fuel == 0 then HopLimit(url)
    else if net(url).None? then Unreachable(url)
    else
      var answer := net(url).value;
      if !IsRedirectStatus(answer.status) then Resolved(url)
      else if answer.location.None? then MissingLocation(url)
      else Follow(net, answer.location.value, fuel - 1)
  }

  /** Any status outside the followed four, such as 200, 308 or 404, gives back the URL
      that was asked for. */
  lemma NonRedirectStatusStops(net: Network, url: string, fuel: nat)
    requires fuel > 0 && net(url).Some?
    requires net(url).value.status in {200, 308, 404}
    ensures Follow(net, url, fuel) == Resolved(url)
  {
  }

  /** A resolved URL is a fixed point: following it again, with any fuel, gives it back. */
  lemma ResolvedIsFixedPoint(net: Network, url: string, fuel: nat, again: nat)
    requires Follow(net, url, fuel).Resolved?
    requires again > 0
    ensures Follow(net, Follow(net, url, fuel).url, again) == Follow(net, url, fuel)
  {
  }

  /** `urls` is a chain of redirects, each to the next, ending at a final answer. */
  predicate RedirectChain(net: Network, urls: seq<string>)
  {
    && |urls| >= 1
    && (forall i :: 0 <= i < |urls| - 1 ==> RedirectsTo(net, urls[i], urls[i + 1]))
    && IsFinal(net, urls[|urls| - 1])
  }

  /** A chain of N redirects ending at a final answer resolves to the chain's last URL,
      given one HEAD request per URL of the chain. */
  lemma {:induction false} ChainResolves(net: Network, urls: seq<string>, fuel: nat)
    requires RedirectChain(net, urls)
    requires fuel >= |urls|
    ensures Follow(net, urls[0], fuel) == Resolved(urls[|urls| - 1])
    decreases |urls|
  {
    if |urls| > 1 {
      assert RedirectsTo(net, urls[0], urls[1]);
      assert RedirectChain(net, urls[1..]) by {
        forall i | 0 <= i < |urls[1..]| - 1
          ensures RedirectsTo(net, urls[1..][i], urls[1..][i + 1])
        {
          assert RedirectsTo(net, urls[i + 1], urls[i + 2]);
        }
      }
      ChainResolves(net, urls[1..], fuel - 1);
    }
  }

  /** Conversely, a resolved URL is always the end of such a chain from the starting URL,
      no longer than the fuel. */
  lemma {:induction false} ResolvedHasChain(net: Network, url: string, fuel: nat)
    requires Follow(net, url, fuel).Resolved?
    ensures exists urls :: RedirectChain(net, urls) && urls[0] == url && |urls| <= fuel
                           && urls[|urls| - 1] == Follow(net, url, fuel).url
    decreases fuel
  {
    var answer := net(url).value;
    if !IsRedirectStatus(answer.status) {
      assert RedirectChain(net, [url]);
    } else {
      var next := answer.location.value;
      ResolvedHasChain(net, next, fuel - 1);
      var rest :| RedirectChain(net, rest) && rest[0] == next && |rest| <= fuel - 1
                  && rest[|rest| - 1] == Follow(net, next, fuel - 1).url;
      var urls := [url] + rest;
      assert RedirectChain(net, urls) by {
        forall i | 0 <= i < |urls| - 1 ensures RedirectsTo(net, urls[i], urls[i + 1]) {
          if i > 0 {
            assert RedirectsTo(net, rest[i - 1], rest[i]);
          }
        }
      }
      assert urls[0] == url && urls[|urls| - 1] == rest[|rest| - 1];
    }
  }

  /** More fuel never changes a resolved answer. */
  lemma {:induction false} MoreFuelSameAnswer(net: Network, url: string, fuel: nat, more: nat)
    requires Follow(net, url, fuel).Resolved?
    requires more >= fuel
    ensures Follow(net, url, more) == Follow(net, url, fuel)
    decreases fuel
  {
    var answer := net(url).value;
    if IsRedirectStatus(answer.status) {
      MoreFuelSameAnswer(net, answer.location.value, fuel - 1, more - 1);
    }
  }

  /** On a server, a URL with a query string appended gets the same answer as the URL
      without it. */
  lemma QueryStringIgnored(server: Server, url: string, query: string)
    requires '?' !in url && '#' !in url
    ensures OnServer(server)(url + "?" + query) == OnServer(server)(url)
  {
    QueryAndFragmentDropped(url, '?', query);
  }
}

=== FILE: release.dfy ===
/** The release metadata the installer reads from the hosting API: the latest tag, and the
    asset list of a tagged release in which the platform archive is looked up. */
module Release {
  import opened Common

  /** One entry of a release's `assets` array. */
  datatype Asset = Asset(name: string, downloadUrl: string)

  /** The fields of a release object the scripts read. */
  datatype ReleaseInfo = ReleaseInfo(tagName: string, assets: seq<Asset>)

  /** An API answer: the HTTP status and, when it is 200, the decoded release. */
  datatype ReleaseResponse = ReleaseResponse(status: int, release: ReleaseInfo)

  /** The latest release's tag, or None when the answer is not 200. */
  function LatestReleaseTag(response: ReleaseResponse): (tag: Option<string>)
    ensures tag.Some? <==> response.status == 200
    ensures tag.Some? ==> tag.value == response.release.tagName
  {
    if response.status != 200 then None else Some(response.release.tagName)
  }

  /** Position of the first asset named exactly `name`, if any. */
  function FirstNamed(assets: seq<Asset>, name: string): (i: Option<nat>)
    ensures i.None? <==> forall j :: 0 <= j < |assets| ==> assets[j].name != name
    ensures i.Some? ==> i.value < |assets| && assets[i.value].name == name
    ensures i.Some? ==> forall j :: 0 <= j < i.value ==> assets[j].name != name
  {
    if |assets| == 0 then None
    else if assets[0].name == name then Some(0)
    else
      match FirstNamed(assets[1..], name)
      case None => None
      case Some(k) => Some(k + 1)
  }

  /** Asset `i` is the first one named `name`. */
  predicate FirstMatchAt(assets: seq<Asset>, name: string, i: int)
  {
    && 0 <= i < |assets|
    && assets[i].name == name
    && forall j :: 0 <= j < i ==> assets[j].name != name
  }

  /** The download URL of the first asset named `name`. The scan stops at that asset, and an
      empty URL there counts as not found. */
  function SelectAssetUrl(assets: seq<Asset>, name: string): (url: Option<string>)
    ensures url.Some? ==> url.value != ""
    ensures url.Some? <==> exists i :: FirstMatchAt(assets, name, i) && assets[i].downloadUrl != ""
    ensures url.Some? ==> exists i :: FirstMatchAt(assets, name, i) && assets[i].downloadUrl == url.value
  {
    match FirstNamed(assets, name)
    case None => None
    case Some(i) => if assets[i].downloadUrl == "" then None else Some(assets[i].downloadUrl)
  }

  /** Assets after the first match are never looked at by the scan. */
  lemma {:induction false} FirstNamedIgnoresLater(assets: seq<Asset>, more: seq<Asset>, name: string)
    requires exists i :: 0 <= i < |assets| && assets[i].name == name
    ensures FirstNamed(assets + more, name) == FirstNamed(assets, name)
  {
    assert (assets + more)[0] == assets[0];
    if assets[0].name != name {
      var i :| 0 <= i < |assets| && assets[i].name == name;
      assert assets[1..][i - 1].name == name;
      FirstNamedIgnoresLater(assets[1..], more, name);
      assert (assets + more)[1..] == assets[1..] + more;
    }
  }

  /** Appending more assets, matching or not, after one that matches does not change the
      selection. */
  lemma LaterAssetsIgnored(assets: seq<Asset>, more: seq<Asset>, name: string)
    requires exists i :: 0 <= i < |assets| && assets[i].name == name
    ensures FirstNamed(assets + more, name) == FirstNamed(assets, name)
    ensures SelectAssetUrl(assets + more, name) == SelectAssetUrl(assets, name)
  {
    FirstNamedIgnoresLater(assets, more, name);
    var k := FirstNamed(assets, name).value;
    assert (assets + more)[k] == assets[k];
  }

  /** With no asset of that name nothing is selected, whatever the URLs. */
  lemma NoMatchNotFound(assets: seq<Asset>, name: string)
    requires forall j :: 0 <= j < |assets| ==> assets[j].name != name
    ensures SelectAssetUrl(assets, name) == None
  {
  }
}

=== FILE: supervisor.dfy ===
/** `run_subprocess_in_macro_window`: every line the child writes is echoed to the console
    and, when capture is on, appended to a buffer; the exit status is passed through or,
    with `check`, raised. The lines read and the exit status are inputs. */
module Supervisor {
  import opened Common
  import opened Text
  import opened LogScan

  /** The text a buffer holds after each line is written to it in turn. */
  function Concat(lines: seq<string>): string
  {
    if |lines| == 0 then "" else Concat(lines[..|lines| - 1]) + lines[|lines| - 1]
  }

  /** `subprocess.CompletedProcess(args, returncode, stdout, stderr)`. */
  datatype Completed = Completed(args: seq<string>, returncode: int, stdout: Option<string>, stderr: Option<string>)

  /** How the call ended: `CalledProcessError(returncode, args)` raised, or a completed
      process returned. */
  datatype RunOutcome = CalledProcessError(code: int, cmd: seq<string>) | Returned(completed: Completed)

  /** The lines written to the console and how the call ended. */
  datatype Run = Run(console: seq<string>, outcome: RunOutcome)

  /** The call with the child writing `linesRead` (stderr goes to the same pipe) and exiting
      with `returncode`. */
  method RunInMacroWindow(command: seq<string>, check: bool, captureOutput: bool, linesRead: seq<string>, returncode: int)
    returns (run: Run)
    ensures run.console == linesRead
    ensures run.outcome.CalledProcessError? <==> check && returncode != 0
    ensures run.outcome.CalledProcessError? ==> run.outcome == CalledProcessError(returncode, command)
    ensures run.outcome.Returned? ==>
              run.outcome.completed.args == command && run.outcome.completed.returncode == returncode
    ensures run.outcome.Returned? ==> (run.outcome.completed.stdout.Some? <==> captureOutput)
    ensures run.outcome.Returned? && captureOutput ==>
              run.outcome.completed.stdout == Some(Concat(linesRead)) && run.outcome.completed.stderr == Some("")
    ensures run.outcome.Returned? && !captureOutput ==> run.outcome.completed.stderr.None?
  {
    var console: seq<string> := [];
    var buffer: Option<string> := if captureOutput then Some("") else None;
    var i := 0;
    while i < |linesRead|
      invariant 0 <= i <= |linesRead|
      invariant console == linesRead[..i]
      invariant buffer.Some? <==> captureOutput
      invariant buffer.Some? ==> buffer.value == Concat(linesRead[..i])
    {
      var line := linesRead[i];
      console := console + [line];
      if buffer.Some? {
        assert linesRead[..i + 1][..i] == linesRead[..i];
        buffer := Some(buffer.value + line);
      }
      i := i + 1;
    }
    assert linesRead[..i] == linesRead;
    if check && returncode != 0 {
      return Run(console, CalledProcessError(returncode, command));
    }
    if captureOutput {
      return Run(console, Returned(Completed(command, returncode, buffer, Some(""))));
    }
    return Run(console, Returned(Completed(command, returncode, None, None)));
  }

  /** Each line with the newline that ended it. */
  function Terminated(lines: seq<string>): (r: seq<string>)
    ensures |r| == |lines|
  {
    seq(|lines|, i requires 0 <= i < |lines| => lines[i] + "\n")
  }

  /** The buffer of newline-terminated lines is their join plus a final newline. */
  lemma {:induction false} ConcatTerminated(lines: seq<string>)
    ensures Concat(Terminated(lines)) == Join(lines + [""], '\n')
    decreases |lines|
  {
    var n := |lines|;
    if n == 1 {
      assert Terminated(lines)[..0] == [];
      assert lines + [""] == [lines[0], ""];
      assert [lines[0], ""][1..] == [""];
    } else if n > 1 {
      var init := lines[..n - 1];
      assert Terminated(lines)[..n - 1] == Terminated(init);
      ConcatTerminated(init);
      JoinSnoc(init, "", '\n');
      JoinSnoc(init, lines[n - 1], '\n');
      assert init + [lines[n - 1]] == lines;
      JoinSnoc(lines, "", '\n');
    } else {
      assert lines + [""] == [""];
    }
  }

  /** The buffer of newline-terminated lines splits back into those lines and a final
      empty piece. */
  lemma CapturedLines(lines: seq<string>)
    requires forall i :: 0 <= i < |lines| ==> '\n' !in lines[i]
    ensures Split(Concat(Terminated(lines)), '\n') == lines + [""]
  {
    var parts := lines + [""];
    ConcatTerminated(lines);
    assert forall i :: 0 <= i < |parts| ==> '\n' !in parts[i] by {
      assert forall i :: 0 <= i < |lines| ==> parts[i] == lines[i];
    }
    SplitJoin(parts, '\n');
  }

  /** Searching a captured buffer of newline-terminated lines finds, in order, the saved
      paths those lines report, and nothing else. */
  lemma CapturedPaths(lines: seq<string>)
    requires forall i :: 0 <= i < |lines| ==> '\n' !in lines[i]
    ensures FindAllSaved(Concat(Terminated(lines))) == Collect(lines)
  {
    CapturedLines(lines);
    ScanIsLineByLine(Concat(Terminated(lines)));
    CollectAppend(lines, [""]);
    assert LineMatch("").None?;
    assert Collect([""]) == [];
  }
}

=== FILE: text.dfy ===
/** Character-level string helpers used by the URL, path and log models. */
module Text {

  /** Index of the first character of `s` that belongs to `cs`, or `|s|` when there is none
      (the "not found" default that urllib's netloc splitting uses). */
  function Find(s: string, cs: set<char>): (k: nat)
    ensures k <= |s|
    ensures forall j :: 0 <= j < k ==> s[j] !in cs
    ensures k < |s| ==> s[k] in cs
  {
    if |s| == 0 then 0
    else if s[0] in cs then 0
    else 1 + Find(s[1..], cs)
  }

  /** Searching a concatenation finds the hit in the left part if there is one, otherwise
      in the right part shifted by the left part's length. */
  lemma FindConcat(a: string, b: string, cs: set<char>)
    ensures Find(a + b, cs) == if Find(a, cs) < |a| then Find(a, cs) else |a| + Find(b, cs)
  {
    var k := Find(a + b, cs);
    var ka := Find(a, cs);
    if ka < |a| {
      assert (a + b)[ka] == a[ka];
      assert k <= ka;
      assert k < |a| ==> (a + b)[k] == a[k];
    } else {
      var kb := Find(b, cs);
      assert forall j :: 0 <= j < |a| ==> (a + b)[j] == a[j];
      assert k >= |a|;
      assert forall j :: |a| <= j < |a| + |b| ==> (a + b)[j] == b[j - |a|];
      if k < |a| + |b| {
        assert b[k - |a|] in cs;
        assert kb <= k - |a|;
      }
      if kb < |b| {
        assert (a + b)[|a| + kb] in cs;
      }
    }
  }

  /** Index of the last occurrence of `c` in `s`, or -1 (Python's `str.rfind`). */
  function LastIndexOf(s: string, c: char): (k: int)
    ensures -1 <= k < |s|
    ensures k == -1 <==> c !in s
    ensures k >= 0 ==> s[k] == c && c !in s[k + 1..]
  {
    if |s| == 0 then -1
    else if s[|s| - 1] == c then |s| - 1
    else
      var k := LastIndexOf(s[..|s| - 1], c);
      assert k >= 0 ==> s[k + 1..] == s[..|s| - 1][k + 1..] + [s[|s| - 1]];
      k
  }

  /** Python's `s.split(sep)`: the pieces between separators, empty pieces included. */
  function Split(s: string, sep: char): (parts: seq<string>)
    ensures |parts| >= 1
    ensures forall i :: 0 <= i < |parts| ==> sep !in parts[i]
    decreases |s|
  {
    var k := Find(s, {sep});
    if k == |s| then
      assert s[..k] == s;
      [s]
    else [s[..k]] + Split(s[k + 1..], sep)
  }

  /** Python's `sep.join(parts)`. */
  function Join(parts: seq<string>, sep: char): string
  {
    if |parts| == 0 then ""
    else if |parts| == 1 then parts[0]
    else parts[0] + [sep] + Join(parts[1..], sep)
  }

  /** Splitting a string that starts with a separator-free piece and a separator. */
  lemma SplitCons(a: string, b: string, sep: char)
    requires sep !in a
    ensures Split(a + [sep] + b, sep) == [a] + Split(b, sep)
  {
    var s := a + [sep] + b;
    FindConcat(a, [sep] + b, {sep});
    assert a + [sep] + b == a + ([sep] + b);
    assert Find(a, {sep}) == |a|;
    assert s[..|a|] == a;
    assert s[|a| + 1..] == b;
  }

  /** Joining the pieces of a split gives back the original string. */
  lemma {:induction false} JoinSplit(s: string, sep: char)
    ensures Join(Split(s, sep), sep) == s
    decreases |s|
  {
    var k := Find(s, {sep});
    if k < |s| {
      var first := s[..k];
      var rest := s[k + 1..];
      assert s == first + [sep] + rest;
      SplitCons(first, rest, sep);
      JoinSplit(rest, sep);
      JoinCons(first, Split(rest, sep), sep);
    } else {
      assert Split(s, sep) == [s];
    }
  }

  /** Joining a first piece in front of at least one more adds it and a separator. */
  lemma JoinCons(x: string, parts: seq<string>, sep: char)
    requires |parts| >= 1
    ensures Join([x] + parts, sep) == x + [sep] + Join(parts, sep)
  {
    assert ([x] + parts)[1..] == parts;
  }

  /** Splitting a join of separator-free pieces gives back the pieces. */
  lemma {:induction false} SplitJoin(parts: seq<string>, sep: char)
    requires |parts| >= 1
    requires forall i :: 0 <= i < |parts| ==> sep !in parts[i]
    ensures Split(Join(parts, sep), sep) == parts
  {
    if |parts| == 1 {
      assert Find(parts[0], {sep}) == |parts[0]|;
    } else {
      SplitJoin(parts[1..], sep);
      SplitCons(parts[0], Join(parts[1..], sep), sep);
    }
  }

  /** Joining one more piece adds a separator and the piece. */
  lemma {:induction false} JoinSnoc(parts: seq<string>, x: string, sep: char)
    requires |parts| >= 1
    ensures Join(parts + [x], sep) == Join(parts, sep) + [sep] + x
  {
    if |parts| > 1 {
      assert (parts + [x])[1..] == parts[1..] + [x];
      JoinSnoc(parts[1..], x, sep);
    }
  }
}

=== FILE: urls.dfy ===
/** The part of `urllib.parse.urlsplit` the redirect follower depends on, and the request
    a HEAD to a URL turns into: the connection goes to the URL's netloc and the request
    target is its path alone. */
module Urls {
  import opened Text

  /** Where a request goes: the connection's host[:port] and the request target. */
  datatype Endpoint = Endpoint(netloc: string, target: string)

  predicate IsAsciiLetter(c: char)
  {
    'a' <= c <= 'z' || 'A' <= c <= 'Z'
  }

  predicate IsSchemeChar(c: char)
  {
    IsAsciiLetter(c) || '0' <= c <= '9' || c == '+' || c == '-' || c == '.'
  }

  /** Every character of `s` may appear in a scheme. */
  predicate SchemeCharsOnly(s: string)
  {
    forall j :: 0 <= j < |s| ==> IsSchemeChar(s[j])
  }

  /** urlsplit's scheme step: the text before the first ':' is a scheme when it is non-empty,
      starts with an ASCII letter and holds only scheme characters; what follows the ':' is
      kept. Otherwise the whole URL is kept. */
  function AfterScheme(url: string): string
  {
    var i := Find(url, {':'});
    if 0 < i < |url| && IsAsciiLetter(url[0]) && SchemeCharsOnly(url[..i]) then url[i + 1..] else url
  }

  /** urlsplit's netloc step: after a leading "//", the netloc runs to the first '/', '?' or
      '#'. Returns the netloc and what follows it. */
  function SplitNetloc(rest: string): (string, string)
  {
    if |rest| >= 2 && rest[0] == '/' && rest[1] == '/' then
      var tail := rest[2..];
      var d := Find(tail, {'/', '?', '#'});
      (tail[..d], tail[d..])
    else ("", rest)
  }

  /** urlsplit's path: the fragment is cut off at the first '#' and then the query at the
      first '?', so the path ends at whichever of the two comes first. */
  function PathPart(rest: string): (path: string)
    ensures path <= rest
    ensures '?' !in path && '#' !in path
    ensures |path| < |rest| ==> rest[|path|] in {'?', '#'}
  {
    rest[..Find(rest, {'?', '#'})]
  }

  /** The request `HEAD url` makes: to the URL's netloc, with its path as the target; the
      query and fragment are dropped, and an empty path is sent as "/". */
  function Request(url: string): (e: Endpoint)
    ensures e.target != ""
    ensures '?' !in e.target && '#' !in e.target
  {
    var parts := SplitNetloc(AfterScheme(url));
    var path := PathPart(parts.1);
    Endpoint(parts.0, if path == "" then "/" else path)
  }

  /** What follows the scheme is a suffix of the URL. */
  lemma AfterSchemeIsSuffix(url: string)
    ensures |AfterScheme(url)| <= |url| && AfterScheme(url) == url[|url| - |AfterScheme(url)|..]
  {
  }

  /** What follows the netloc is a suffix of what it was split from. */
  lemma SplitNetlocIsSuffix(rest: string)
    ensures |SplitNetloc(rest).1| <= |rest| && SplitNetloc(rest).1 == rest[|rest| - |SplitNetloc(rest).1|..]
  {
  }

  lemma AfterSchemeExtend(url: string, c: char, tail: string)
    requires c in {'?', '#'}
    ensures AfterScheme(url + [c] + tail) == AfterScheme(url) + [c] + tail
  {
    var long := url + [c] + tail;
    assert long == url + ([c] + tail);
    FindConcat(url, [c] + tail, {':'});
    var i := Find(url, {':'});
    if i < |url| {
      SameSchemeTest(url, long, i);
      assert long[i + 1..] == url[i + 1..] + [c] + tail;
    } else {
      NoSchemeAcrossQuery(url, c, tail);
    }
  }

  /** A URL and a longer string that agree up to the first ':' pass the scheme test alike. */
  lemma SameSchemeTest(url: string, long: string, i: nat)
    requires i < |url| <= |long| && url == long[..|url|]
    ensures long[..i] == url[..i]
    ensures long[0] == url[0]
  {
  }

  /** When the first ':' comes after a '?' or '#', the text before it is not a scheme. */
  lemma NoSchemeAcrossQuery(url: string, c: char, tail: string)
    requires c in {'?', '#'}
    requires Find(url, {':'}) == |url|
    ensures AfterScheme(url + [c] + tail) == url + [c] + tail
  {
    var long := url + [c] + tail;
    var k := Find(long, {':'});
    if 0 < k < |long| && IsAsciiLetter(long[0]) {
      assert long[|url|] == c;
      assert k > |url| by {
        assert long[..|url|] == url;
      }
      assert long[..k][|url|] == c;
      assert !IsSchemeChar(c);
    }
  }

  lemma SplitNetlocExtend(r: string, c: char, tail: string)
    requires c in {'?', '#'}
    requires '?' !in r && '#' !in r
    ensures SplitNetloc(r + [c] + tail).0 == SplitNetloc(r).0
    ensures SplitNetloc(r + [c] + tail).1 == SplitNetloc(r).1 + [c] + tail
  {
    var long := r + [c] + tail;
    if |r| >= 2 {
      assert long[0] == r[0] && long[1] == r[1];
      if r[0] == '/' && r[1] == '/' {
        var t := r[2..];
        assert long[2..] == t + ([c] + tail);
        FindConcat(t, [c] + tail, {'/', '?', '#'});
        var d := Find(t, {'/', '?', '#'});
        if d < |t| {
          assert (t + ([c] + tail))[..d] == t[..d];
          assert (t + ([c] + tail))[d..] == t[d..] + [c] + tail;
        } else {
          assert Find([c] + tail, {'/', '?', '#'}) == 0;
          assert (t + ([c] + tail))[..|t|] == t;
          assert (t + ([c] + tail))[|t|..] == [c] + tail;
        }
      }
    } else if |r| == 1 {
      assert long[1] == c;
    } else {
      assert long[0] == c;
    }
  }

  lemma PathPartExtend(rest: string, c: char, tail: string)
    requires c in {'?', '#'}
    requires '?' !in rest && '#' !in rest
    ensures PathPart(rest + [c] + tail) == PathPart(rest)
  {
    FindConcat(rest, [c] + tail, {'?', '#'});
    assert rest + [c] + tail == rest + ([c] + tail);
    assert Find([c] + tail, {'?', '#'}) == 0;
    assert Find(rest, {'?', '#'}) == |rest|;
    assert (rest + [c] + tail)[..|rest|] == rest;
  }

  /** The query string and the fragment never reach the server: appending either to a URL
      that has neither leaves the request unchanged. */
  lemma QueryAndFragmentDropped(url: string, c: char, tail: string)
    requires c in {'?', '#'}
    requires '?' !in url && '#' !in url
    ensures Request(url + [c] + tail) == Request(url)
  {
    AfterSchemeExtend(url, c, tail);
    var r := AfterScheme(url);
    AfterSchemeIsSuffix(url);
    assert '?' !in r && '#' !in r;
    SplitNetlocExtend(r, c, tail);
    var rest := SplitNetloc(r).1;
    SplitNetlocIsSuffix(r);
    assert '?' !in rest && '#' !in rest;
    PathPartExtend(rest, c, tail);
  }

  /** A string none of whose characters is in `cs` has no hit. */
  lemma FindNone(s: string, cs: set<char>)
    requires forall j :: 0 <= j < |s| ==> s[j] !in cs
    ensures Find(s, cs) == |s|
  {
  }

  /** A string that is empty or starts with a character of `cs` is hit at once. */
  lemma FindAtStart(s: string, cs: set<char>)
    requires s == [] || s[0] in cs
    ensures Find(s, cs) == 0
  {
  }

  /** The scheme step of `scheme://rest` keeps "//" and what follows. */
  lemma AfterSchemeOfParts(scheme: string, rest: string)
    requires |scheme| > 0 && IsAsciiLetter(scheme[0]) && SchemeCharsOnly(scheme)
    ensures AfterScheme(scheme + "://" + rest) == "//" + rest
  {
    var url := scheme + "://" + rest;
    assert url == scheme + (":" + "//" + rest);
    FindNone(scheme, {':'});
    FindAtStart(":" + "//" + rest, {':'});
    FindConcat(scheme, ":" + "//" + rest, {':'});
    assert url[..|scheme|] == scheme;
    assert url[|scheme| + 1..] == "//" + rest;
  }

  /** The netloc step of `//netloc rest` splits at the end of a netloc free of '/', '?' and
      '#' when `rest` is empty or starts with one of them. */
  lemma SplitNetlocOfParts(netloc: string, rest: string)
    requires '/' !in netloc && '?' !in netloc && '#' !in netloc
    requires rest == "" || rest[0] in {'/', '?', '#'}
    ensures SplitNetloc("//" + netloc + rest) == (netloc, rest)
  {
    var s := "//" + netloc + rest;
    assert s[2..] == netloc + rest;
    FindNone(netloc, {'/', '?', '#'});
    FindAtStart(rest, {'/', '?', '#'});
    FindConcat(netloc, rest, {'/', '?', '#'});
    assert (netloc + rest)[..|netloc|] == netloc;
    assert (netloc + rest)[|netloc|..] == rest;
  }

  /** The path step of `path suffix` keeps `path` when it has no '?' or '#' and the suffix is
      empty or starts a query or fragment. */
  lemma PathPartOfParts(path: string, suffix: string)
    requires '?' !in path && '#' !in path
    requires suffix == "" || suffix[0] in {'?', '#'}
    ensures PathPart(path + suffix) == path
  {
    FindNone(path, {'?', '#'});
    FindAtStart(suffix, {'?', '#'});
    FindConcat(path, suffix, {'?', '#'});
    assert (path + suffix)[..|path|] == path;
  }

  /** A URL written as `scheme://netloc path suffix` is requested from `netloc` with `path` as
      the target, or "/" when the path is empty; the query or fragment in `suffix` is dropped. */
  lemma RequestOfParts(scheme: string, netloc: string, path: string, suffix: string)
    requires |scheme| > 0 && IsAsciiLetter(scheme[0]) && SchemeCharsOnly(scheme)
    requires '/' !in netloc && '?' !in netloc && '#' !in netloc
    requires path == "" || path[0] == '/'
    requires '?' !in path && '#' !in path
    requires suffix == "" || suffix[0] == '?' || suffix[0] == '#'
    ensures Request(scheme + "://" + netloc + path + suffix) == Endpoint(netloc, if path == "" then "/" else path)
  {
    var rest := netloc + path + suffix;
    assert scheme + "://" + netloc + path + suffix == scheme + "://" + rest;
    AfterSchemeOfParts(scheme, rest);
    assert "//" + rest == "//" + netloc + (path + suffix);
    SplitNetlocOfParts(netloc, path + suffix);
    PathPartOfParts(path, suffix);
  }
}
